=== FILE: README.md ===
# freedom-api client core, in Dafny

This project models the deterministic layer of the Rust client for the ATLAS Freedom REST
API. That layer sits between the HTTP transport and the caller. It consists of:

- how a reply is classified: transport error, non-2xx status, or decoded value;
- the paginated stream that follows `next` links from page to page;
- the URL paths and query strings of the read, delete and token calls;
- the HATEOAS link helpers of the model extension traits;
- the caching client, seen one call at a time;
- the typestate POST builders for task requests, band details, satellite configurations,
  users, overrides and satellites.

Everything the client hands to a library is a function-typed parameter:

- the transport's `get`, `post` and `delete`;
- lossy UTF-8 decoding;
- the JSON decoders;
- `Url::join` and `Url::set_query`;
- ISO 8601 time formatting.

Each property is therefore proved for every behaviour of those collaborators.

Modules, by file:

| file | modules | what they hold |
|---|---|---|
| `base.dfy` | `Results`, `Ints` | Rust's `Option`/`Result` and the fixed-width integer ranges |
| `decimal.dfy` | `Decimal` | `Display` of integers and `str::parse::<i32>` |
| `text.dfy` | `Text` | `str::split` and `join` on one separator character |
| `utils.dfy` | `Utils` | `list_to_string` |
| `http.dfy` | `Http` | status codes, the parsed URL record, `path_segments` |
| `json.dfy` | `JsonValues` | untyped JSON with `get` and `as_str` |
| `errors.dfy` | `Errors` | the `Error` enum and its `From` conversions |
| `api.dfy` | `Api` | the `Inner` container, `once_err` and `error_on_non_success`; `get_json_map`/`post_json_map`, file download, delete replies, `path_to_url` and FPS tokens |
| `pagination.dfy` | `Pagination` | `get_paginated`, cut after a given number of pages |
| `endpoints.dfy` | `Endpoints` | every read call's path, query and failure order; the delete paths |
| `extensions.dfy` | `Extensions` | `get_id`, `get_item`, `get_embedded`, `get_content` |
| `caching.dfy` | `Caching` | `CachingClient` as a map from URL to `(body, status)` |
| `post_paths.dfy` | `PostPaths` | the builders' id-to-URL step |
| `post_*.dfy` | one module per builder | the builders in `src/api/post/` |

## Model

| member | source | states |
|---|---|---|
| Decimal.NatToText | src/api.rs:1581-1584 | the decimal text of an unsigned id is one or more digits with no sign and no leading zero |
| Decimal.IntToText | src/api.rs:259 | the text of an id has a `-` exactly for negative ids and never holds `/`, `,`, `&` or `=` |
| Decimal.ParseI32 | src/extensions/mod.rs:44 | an accepted segment is an optional sign and then one or more digits; a digit run, with `+` or without a sign, is accepted exactly when its value is at most 2147483647 and then reads as that value; with `-` it is accepted exactly up to 2147483648 and reads as the negated value |
| Decimal.ParseI32OfIntToText | src/extensions/mod.rs:38-44 | parsing the text of any `i32` gives that `i32` back |
| Decimal.IntToTextInjective | src/api.rs:259 | distinct ids give distinct path texts |
| Decimal.ParseI32RejectsOverflow | src/extensions/mod.rs:44 | a digit run outside the `i32` range is rejected, with or without a sign |
| Decimal.ParseI32AcceptsSignAndLeadingZero | src/extensions/mod.rs:44 | texts that `Display` never writes are read too: `+7`, `07` and `+07` all read as 7 |
| Utils.ListToString | src/utils.rs:1-10 | `[]` gives `""`; one element gives itself; otherwise the first element, `,`, then the rest; the length is the sum of the lengths plus n−1 |
| Utils.ListToStringSplits | src/utils.rs:6-9 | a non-empty list of comma-free elements splits back into the same list |
| Utils.ListToStringNotInjective | src/utils.rs:6-9 | `[]` and `[""]` render the same |
| Text.Split | src/extensions/mod.rs:38-42 | at least one piece, and no piece holds the separator |
| Text.Join | src/utils.rs:6-9 | no parts give `""`; otherwise the text starts with the first part and its length is the parts' total plus one separator between each two |
| Text.SplitOfJoin | src/utils.rs:6-9 | splitting a join of separator-free parts gives the parts back |
| Text.JoinOfSplit | src/extensions/mod.rs:38-42 | joining the pieces of a split gives the text back |
| Http.StatusFromU16 | src/error.rs:43-48 | every three-digit number, and nothing else, is a status, with that code |
| Http.IsSuccess | src/api.rs:1640 | a status is a success exactly when its hundreds digit is 2 |
| Http.PathSegments | src/extensions/mod.rs:38-42 | there are no segments exactly when the path does not start with `/`; otherwise there is at least one segment and they join back to the path |
| Http.LastPathSegment | src/extensions/mod.rs:38-42 | the last segment of `/<prefix>/<seg>` is `seg` |
| JsonValues.Get | src/api.rs:1589 | `get(key)` is present exactly for an object holding the key, and is that field |
| JsonValues.AsStr | src/api.rs:1591 | `as_str` is present exactly for a JSON string, and is its text |
| Errors.FromTransport | src/error.rs:57-65 | a transport error with a status becomes `ResponseStatus` with that status; one without becomes `Response`; the text is kept either way |
| Errors.FromJson | src/error.rs:67-71 | a JSON error becomes `Deserialization` with its text |
| Errors.FromTime | src/error.rs:73-83 | a time error of either kind becomes `TimeFormatError` with its text |
| Errors.FromUrlParse | src/error.rs:85-89 | a URL parse error becomes `InvalidUri` with its text |
| Errors.PagItem | src/error.rs:50-55 | `pag_item(s)` is `PaginationItemDeserialization(s)` |
| Errors.SerializeStatus | src/error.rs:43-48 | a status serialises as a `u16` that reads back as the same status |
| Errors.TimeKindsMerge | src/error.rs:73-83 | the two time-error kinds with the same text convert to the same error |
| Api.NewInner | src/api.rs:129-133 | `Inner::new(x)` dereferences to `x` |
| Api.IntoInner | src/api.rs:120-127 | `into_inner` returns what the container dereferences to, and wrapping it again gives the same container |
| Api.Deref | src/api.rs:106-112 | dereferencing gives the value the container wraps, and the container is determined by it |
| Api.OnceErr | src/api.rs:45-49 | the error stream has exactly one element, the error |
| Api.ErrorOnNonSuccess | src/api.rs:1639-1648 | Ok exactly for a 2xx status; otherwise `ResponseStatus` with that status and the lossy body text |
| Api.DecodeReply | src/api.rs:184-189 | a transport error propagates unchanged; then a non-2xx status becomes `ResponseStatus`; then a decode failure becomes `Deserialization`; Ok only for a 2xx body that decodes to the value |
| Api.DecoderSeesOnlySuccess | src/api.rs:184-189 | for a transport error or a non-2xx status, the decoder cannot change the outcome |
| Api.GetJsonMap | src/api.rs:178-190 | the GET's transport error propagates; a non-2xx reply gives `ResponseStatus` with its status and lossy body; on a 2xx reply the result is the decoded body, or `Deserialization` with the decoder's text |
| Api.PostJsonMap | src/api.rs:380-397 | the same classification for the POST of the message: transport error, `ResponseStatus`, then the decoded body or `Deserialization` |
| Api.GetItems | src/api.rs:1228-1231 | a collection fetch succeeds exactly when the wrapped fetch does, with its `items`; otherwise the same error |
| Api.FetchFile | src/api.rs:441-455 | the raw body exactly on 2xx; otherwise `ResponseStatus` carrying the fixed "Failed to fetch file" text |
| Api.FileErrorIgnoresBody | src/api.rs:450-451 | a failed download reports the same error whatever body the server sent |
| Api.DeleteReply | src/api.rs:370-377 | a delete is `Ok(())` exactly on a 2xx reply; a non-2xx reply gives `ResponseStatus` with the body text |
| Api.PathToUrl | src/api.rs:238-242 | the join result on success; a join failure becomes `InvalidUri` with the parser's text |
| Api.ExtractToken | src/api.rs:1588-1593 | Ok exactly when `token` is a string field, with that string; a missing key gives `Response("Missing token field")`; a non-string gives `Response("Invalid type for token")` |
| Api.TokenPayloadBySiteConfiguration | src/api.rs:1581-1584 | the body has exactly the keys `band` and `configuration`, holding `/api/satellite_bands/{band}` and `/api/configurations/{id}` |
| Api.TokenPayloadBySatellite | src/api.rs:1622-1625 | the body has exactly the keys `band` and `satellite`, holding `/api/satellite_bands/{band}` and `/api/satellites/{id}` |
| Api.NewToken | src/api.rs:1574-1596 | a bad `fps` path fails with `InvalidUri` and the join's text; then the POST's transport error, a non-2xx `ResponseStatus` or a `Deserialization` failure propagates; a decoded reply gives exactly what reading its `token` field gives, the token or one of the two token errors |
| Api.NewTokenReadsOnlyFpsReply | src/api.rs:1580-1586 | only the reply to the one POST of the payload to the `fps` URL matters; with a bad path the transport plays no part |
| Api.NewTokenBySiteConfigurationId | src/api.rs:1574-1596 | `new_token_by_site_configuration_id` is the token exchange with the band and site-configuration payload; its token is read from the reply to that payload |
| Api.NewTokenBySatelliteId | src/api.rs:1615-1636 | `new_token_by_satellite_id` is the token exchange with the band and satellite payload; its token is read from the reply to that payload |
| Api.TokenPayloadsDiffer | src/api.rs:1581-1584 | the site-configuration payload and the satellite payload are never the same body |
| Pagination.DecodeItem | src/api.rs:217 | an item decodes to its value, or to `Deserialization` with the decoder's text |
| Pagination.FetchPage | src/api.rs:215 | a page fetch fails with the transport's error, or with `ResponseStatus` and the lossy body for a non-2xx reply; a fetched page is the decoding of a 2xx body |
| Pagination.Paginate | src/api.rs:206-235 | no pages pulled gives nothing; a first page that cannot be fetched gives exactly its error; a fetched first page's items come first, one decoded element each, and are all there is when it has no `next` link |
| Pagination.PaginateStep | src/api.rs:212-233 | a fetched page with a resolvable `next` link contributes its decoded items, then the stream continues from the link with one page fewer |
| Pagination.GetPaginated | src/api.rs:206-235 | the client's stream: a failed first fetch is the whole stream; otherwise the first page's items, each decoded as `DecodeItem` does, come first |
| Pagination.ResolveLink | src/api.rs:220-229 | a `next` link with a host is used verbatim; one without is joined to the entrypoint; a join failure becomes `PaginationItemDeserialization` |
| Pagination.NextOf | src/api.rs:220-232 | a page leads nowhere exactly when it has no `next` link |
| Pagination.WalkOf | src/api.rs:206-235 | the client's walk fetches pages with `get_json_map`, follows links as `ResolveLink` does and decodes items as `DecodeItem` does |
| Pagination.DecodeItems | src/api.rs:216-219 | a page yields exactly one element per raw item, in order: element `i` is the decoding of raw item `i` |
| Pagination.PaginateAlongChain | src/api.rs:212-233 | along fetched pages linked by `next`, the stream is their items in page order, then whatever the last link leads to |
| Pagination.PaginateFiniteChain | src/api.rs:212-233 | a finite chain without failures yields every page's items in page order and ends at the first page with no `next` link |
| Pagination.PaginatePageFailure | src/api.rs:215 | a page that cannot be fetched ends the stream with that one error, after all earlier items |
| Pagination.PaginateLinkFailure | src/api.rs:225-227 | a `next` link that does not resolve ends the stream with that error, after its page's items |
| Pagination.PaginateFuelPrefix | src/api.rs:212-233 | pulling fewer pages shows a prefix of what pulling more shows |
| Pagination.SelfLinkedPageNeverEnds | src/api.rs:212-233 | with no cycle guard, a page linking to itself repeats its items once per page pulled |
| Pagination.ItemFailureIsIsolated | src/api.rs:216-219 | an item that fails costs exactly its own position, as `Deserialization`; every other item is unaffected |
| Pagination.LinkFailureIsPaginationError | src/api.rs:222-228 | a failed link is always `PaginationItemDeserialization`, and only for a link without a host |
| Pagination.ClientWalkFollowsNextLink | src/api.rs:220-232 | the walk stops exactly at a page with no `next` link; a link with a host is followed as it is |
| Pagination.PageFailureIsFetchFailure | src/api.rs:215 | a first page that fails gives the stream `[that error]` |
| Pagination.StreamFrom | src/api.rs:701-710 | a head URL that cannot be built gives the one-error stream; otherwise the paginated walk from it |
| Endpoints.ParseQueryOfRenderQuery | src/api.rs:762-767 | a rendered query whose keys hold no `=` or `&` and whose values hold no `&` parses back to its pairs |
| Endpoints.FormatBoth | src/api.rs:721-725 | both times format, start first; the first failure becomes `TimeFormatError` |
| Endpoints.Prepare | src/api.rs:713-770 | the joined URL and formatted times exactly when the conversion, the join and both formattings succeed; a failed conversion wins. A format-first call reports the first time that does not format (start, then end) before a bad path, and a bad path once both times format. Any other call reports a bad path first, and after a good join the first time that does not format |
| Endpoints.PathOf | src/api.rs:415-1390 | every read call's path is relative: non-empty and without a leading `/`, so it joins beneath the entrypoint |
| Endpoints.SearchPath | src/api.rs:420 | a named query's path starts with its collection and stays relative when the collection is |
| Endpoints.ParamsOf | src/api.rs:420-1336 | a call that sets a query sets at least one pair |
| Endpoints.TimedCallsEndWithTimes | src/api.rs:721-1336 | every call that takes a time window sets a query, and its last two pairs are `start` and then `end` |
| Endpoints.WithQuery | src/api.rs:762-767 | a call without a query keeps the joined URL; a call with one sets a text that, for readable pairs, parses back to exactly those pairs |
| Endpoints.Locate | src/api.rs:415-1390 | a read call's URL exists exactly when its conversion, the path join and the time formatting all succeed; it is the joined path with the call's query set (for the status/account stream, the query with the corrected `account` key) |
| Endpoints.StatusAccountQueryAsWritten | src/api.rs:1042-1048 | four pairs: `status`, then the account under `satelliteNames`, then `start` and `end` |
| Endpoints.StatusAccountQuery | src/api.rs:1024-1050 | the as-written query with only its second pair changed, to the account under `account` |
| Endpoints.ConversionFailsFirst | src/api.rs:1005-1008 | a failed `try_into` of the status or type wins over every other failure |
| Endpoints.FormatFailsBeforeJoin | src/api.rs:746-760 | in the two streams that format first, a time that does not format wins over a path that does not join: the start's `TimeFormatError` if the start fails, otherwise the end's |
| Endpoints.JoinFailsBeforeFormat | src/api.rs:719-725 | in every other call, including the two streams that unwrap their times (src/api.rs:924-933, 1035-1048), a path that does not join wins over a time that does not format |
| Endpoints.StreamOf | src/api.rs:737-770 | a stream call with a bad URL yields exactly that one error; otherwise the paginated walk from the URL (the corrected URL for the status/account stream) |
| Endpoints.StatusAccountLocateAsWritten | src/api.rs:1024-1050 | the URL the status/account/time stream requests as written fails exactly when `Locate` fails, and otherwise differs from it only in carrying the account under `satelliteNames` instead of `account` |
| Endpoints.IdCallsEndInTheirId | src/api.rs:497-508 | every by-id read's path is `collection/{id}`, and its last segment parses back to the id |
| Endpoints.QueryReadsBack | src/api.rs:823-860 | every read call's query reads back whole when its arguments hold no `&` (the status/account stream's with the corrected `account` key) |
| Endpoints.AccountSentAsSatelliteNames | src/api.rs:1042-1048 | as written, a server reading the status/account query finds no `account` key and finds the account URI under `satelliteNames` |
| Endpoints.StatusAccountQueryReadsBack | src/api.rs:1024-1050 | with the key corrected to `account`, status, account, start and end read back under their own names |
| Endpoints.TaskQueriesSharePath | src/api.rs:1218-1268 | the satellite-config and site-config task queries share one path; only their second key differs |
| Endpoints.DeleteCollection | src/api.rs:257-377 | every delete targets a single non-empty path segment |
| Endpoints.DeletePath | src/api.rs:257-377 | every delete path splits into exactly two segments: the collection and the id's text |
| Endpoints.DeletePathEndsInId | src/api.rs:257-377 | the last segment of every delete path parses back to the deleted id |
| Endpoints.DeleteMatchesRead | src/api.rs:257-377 | a delete and the by-id read of the same collection and id use one path; this covers bands, satellite configurations, satellites and task requests |
| Extensions.GetId | src/extensions/mod.rs:33-45 | `MissingUri(reference)` exactly when the link is absent; `InvalidUri("Missing Path")` exactly when the URL has no segments; `InvalidId` exactly when the last segment is no `i32`; otherwise that `i32` |
| Extensions.GetIdOfIdUrl | src/extensions/mod.rs:38-44 | a link to `…/{id}` yields `id` |
| Extensions.GetIdOfCallPath | src/extensions/mod.rs:33-45 | a self link under the entrypoint's path to the by-id read path yields the id the read was given |
| Extensions.TrailingSlashIsInvalidId | src/extensions/mod.rs:38-44 | a link ending in `/` gives `InvalidId` |
| Extensions.OverflowIsInvalidId | src/extensions/mod.rs:44 | a last segment past the `i32` range gives `InvalidId` |
| Extensions.SelfId | src/extensions/site.rs:9-13 | the entity `get_id` reads the `self` link: `MissingUri("self")` exactly without it, `InvalidUri` exactly for a cannot-be-a-base link, `InvalidId` exactly when its last segment is no `i32`, and otherwise that segment's value |
| Extensions.GetItem | src/extensions/mod.rs:47-62 | a missing link is `MissingUri` before any fetch; otherwise it is the fetch of exactly the linked URL: transport error, `ResponseStatus` for a non-2xx reply, then the decoded body or `Deserialization` |
| Extensions.GetItemReadsOnlyItsLink | src/extensions/mod.rs:56-61 | two transports that agree on the linked URL give the same result |
| Extensions.MissingLinkIsNotFetched | src/extensions/mod.rs:56-59 | with the link missing, the transport plays no part |
| Extensions.GetEmbedded | src/extensions/mod.rs:67-82 | the `get_item` outcome with the wrapper's `items` |
| Extensions.GetEmbeddedIsCollectionFetch | src/extensions/mod.rs:78-81 | with the link present, `get_embedded` is the collection fetch of that URL |
| Extensions.GetContent | src/extensions/mod.rs:84-96 | the `get_item` outcome with the wrapper's `inner` |
| Caching.NewCachingClient | src/caching_client.rs:32-37 | the given client and capacity, with an empty cache |
| Caching.EqualityIsConfigEquality | src/caching_client.rs:46-50 | two caching clients are equal exactly when their configurations are |
| Caching.Get | src/caching_client.rs:68-88 | the inner client is asked exactly on a miss; a hit returns the stored pair; an Ok reply is stored under exactly that URL; an error leaves the client unchanged; other entries are kept |
| Caching.InvalidateAll | src/caching_client.rs:39-43 | the cache is empty and the inner client is kept |
| Caching.Delete | src/caching_client.rs:61-63 | the inner client's reply, with the caching client unchanged |
| Caching.Post | src/caching_client.rs:90-95 | the inner client's reply, with the caching client unchanged |
| Caching.SharedIntoInner | src/caching_client.rs:52-56 | `into_inner` of an `Arc` gives the wrapped value |
| Caching.ContainersAgree | src/caching_client.rs:52-56 | `Arc` and `Inner` hand back the same value they were built from |
| Caching.GetIsTransparent | src/caching_client.rs:68-88 | against a server that agrees with the cache, a `get` returns what the server would, and the cache stays in agreement |
| Caching.Replay | src/caching_client.rs:68-88 | a run of `get`s gives one reply per call, keeps the inner client and every earlier entry, and only asks for URLs of the run |
| Caching.ReplayIsTransparent | src/caching_client.rs:68-88 | from an agreeing cache, every reply of a run is the server's answer |
| Caching.ReplayCachesEveryUrl | src/caching_client.rs:80-85 | when the server answers every URL of a run, the cache ends up holding exactly the old keys plus the run's URLs |
| Caching.ReplayMissesAreNewUrls | src/caching_client.rs:80-85 | the inner client is asked exactly for the URLs of the run that were not cached at its start, whether or not the server answers them |
| Caching.ReplayMissesDistinct | src/caching_client.rs:80-85 | when the server answers every URL of the run, no URL is asked for twice |
| Caching.ReplayFetchesEachMissOnce | src/caching_client.rs:68-88 | when the server answers every URL of the run, the three properties above hold together: each new URL is fetched once, and nothing else is fetched |
| Caching.FailingUrlFetchedEachTime | src/caching_client.rs:80-87 | an uncached URL whose fetch fails is asked for again at every `get`: `n` calls make `n` fetches, and the client is left as it was |
| Caching.FailedFetchIsRetried | src/caching_client.rs:82-87 | a failed fetch is not stored: the next `get` of the URL asks the inner client again |
| Caching.StoredReplyOutlivesServer | src/caching_client.rs:72-75 | a reply that arrived, 2xx or not, keeps being returned after the server changes its answer |
| Caching.InvalidateThenRefetch | src/caching_client.rs:39-43 | after `invalidate_all`, a `get` of a previously cached URL asks the inner client |
| Caching.PassThroughIsInvisible | src/caching_client.rs:58-95 | a `delete` or `post` in between changes nothing a later `get` sees |
| Caching.EqualityIgnoresCache | src/caching_client.rs:46-50 | a client equals itself after any run of `get`s, after `invalidate_all`, and a fresh client with the same inner client |
| PostPaths.IdUrls | src/api/post/request.rs:309-314 | one URL per id, in order: the URL of `collection/{id}` |
| PostPaths.IdUrlsAppend | src/api/post/request.rs:309-314 | mapping ids to URLs commutes with concatenation |
| PostPaths.ReferencesAreReadUrls | src/api/post/request.rs:188-195 | the URL a builder stores for `collection/{id}` is the URL that collection's by-id read call fetches for that id |
| PostPaths.SatellitePathIsNotConfigurationPath | src/api/post/overrides.rs:83-86 | a satellite path is never a satellite-configuration path |
| PostRequest.ExactTask | src/api/post/request.rs:88-93 | the exact kind |
| PostRequest.FlexTask | src/api/post/request.rs:95-109 | the flex kind with its flex kind and hours |
| PostRequest.FlexTaskAfter | src/api/post/request.rs:111-113 | flex `After` with the hours |
| PostRequest.FlexTaskAround | src/api/post/request.rs:115-120 | flex `Around` with the hours |
| PostRequest.FlexTaskBefore | src/api/post/request.rs:122-127 | flex `Before` with the hours |
| PostRequest.FlexShorthands | src/api/post/request.rs:111-127 | the three shorthands equal `flex_task` with `After`, `Around` and `Before` |
| PostRequest.TestTask | src/api/post/request.rs:129-141 | the test kind with its file |
| PostRequest.TargetTimeUtc | src/api/post/request.rs:149-157 | the time is stored; the kind is kept |
| PostRequest.TaskDuration | src/api/post/request.rs:166-175 | the duration is stored; kind and time are kept |
| PostRequest.SatelliteUrl | src/api/post/request.rs:199-209 | the satellite is stored; earlier stages are kept |
| PostRequest.SatelliteId | src/api/post/request.rs:188-195 | the satellite step with the URL the satellite's read call fetches |
| PostRequest.SiteUrl | src/api/post/request.rs:234-245 | the site is stored; earlier stages are kept |
| PostRequest.SiteId | src/api/post/request.rs:223-230 | the site step with the URL the site's read call fetches |
| PostRequest.SiteConfigurationUrl | src/api/post/request.rs:271-286 | the configuration is stored; earlier stages are kept |
| PostRequest.SiteConfigurationId | src/api/post/request.rs:260-267 | the configuration step with the URL the site configuration's read call fetches |
| PostRequest.Adjust | src/api/post/request.rs:38-85 | the type is the kind's own; a test sets its file; a flex sets its hours; exact sets neither; nothing else moves |
| PostRequest.BandUrls | src/api/post/request.rs:319-349 | site, satellite, configuration and duration carried over; bands in order; the target date is the formatted target time; minimum duration equals duration; no override; type, flex hours and test file as the kind gives them |
| PostRequest.BandIds | src/api/post/request.rs:302-317 | band `k` is the URL of `satellite_bands/{ids[k]}`; every other field is as `band_urls` sets it |
| PostRequest.TaskMinimumDuration | src/api/post/request.rs:353-356 | sets the minimum duration and nothing else |
| PostRequest.OverrideUrl | src/api/post/request.rs:358-361 | sets the override and nothing else |
| PostRequest.OverrideId | src/api/post/request.rs:368-375 | sets the override to the URL of `overrides/{id}` and nothing else |
| PostRequest.LastSetterWins | src/api/post/request.rs:353-361 | the last call of each setter wins, and the two setters commute |
| PostRequest.ExactRequestHasNoExtras | src/api/post/request.rs:319-343 | an exact task's request is fully determined, with no flex hours, test file or override |
| PostBand.Name | src/api/post/band.rs:41-46 | the name is stored |
| PostBand.BandType | src/api/post/band.rs:54-62 | the band type is stored; the name is kept |
| PostBand.Frequency | src/api/post/band.rs:71-80 | the frequency is stored; earlier fields are kept |
| PostBand.DefaultBandWidth | src/api/post/band.rs:90-103 | the bandwidth is stored; earlier fields are kept |
| PostBand.IoHardware | src/api/post/band.rs:114-137 | earlier fields are kept; the IO configuration holds only the hardware (no patterns, strip off); modulation, EIRP, gain and polarization are empty; manual transmit control is off |
| PostBand.Polarization | src/api/post/band.rs:141-144 | sets the polarization and nothing else |
| PostBand.Modulation | src/api/post/band.rs:146-149 | sets the modulation and nothing else |
| PostBand.EffectiveIsotropicRadiativePower | src/api/post/band.rs:151-154 | sets the EIRP and nothing else |
| PostBand.Gain | src/api/post/band.rs:156-159 | sets the gain and nothing else |
| PostBand.ManualTransmitControl | src/api/post/band.rs:161-164 | sets the flag and nothing else |
| PostBand.StagesCarryForward | src/api/post/band.rs:41-137 | name, type, frequency and bandwidth reach the finished body unchanged |
| PostBand.SettersCommute | src/api/post/band.rs:141-164 | the optional setters can be applied in any order |
| PostBand.LastSetterWins | src/api/post/band.rs:156-164 | setting a field twice keeps the last value |
| PostSatConfig.Name | src/api/post/sat_config.rs:40-45 | the name is stored |
| PostSatConfig.BandResults | src/api/post/sat_config.rs:61-76 | the entries as given, the name kept, no Doppler and no notes |
| PostSatConfig.BandUrls | src/api/post/sat_config.rs:53-59 | each URL becomes a `Checked` entry, in order |
| PostSatConfig.BandIds | src/api/post/sat_config.rs:83-93 | entry `k` is `Unchecked` of resolving `satellite_bands/{ids[k]}` |
| PostSatConfig.Doppler | src/api/post/sat_config.rs:97-100 | sets Doppler and nothing else |
| PostSatConfig.Notes | src/api/post/sat_config.rs:102-105 | sets the notes and nothing else |
| PostSatConfig.SettersCommute | src/api/post/sat_config.rs:96-106 | the setters commute, and the last Doppler wins |
| PostSatConfig.FirstFailure | src/api/post/sat_config.rs:115-119 | no position exactly when every entry converts; otherwise the first entry that does not |
| PostSatConfig.ConvertBands | src/api/post/sat_config.rs:115-119 | succeeds exactly when every entry converts, with the converted list in order; otherwise the first failing entry's error |
| PostSatConfig.Payload | src/api/post/sat_config.rs:112-126 | the body keeps name, Doppler and notes and holds the converted bands in order; otherwise the first conversion error, and nothing is posted |
| PostUser.AccountId | src/api/post/user.rs:33-40 | the account id is stored |
| PostUser.FirstName | src/api/post/user.rs:48-56 | the first name is stored; the account is kept |
| PostUser.LastName | src/api/post/user.rs:65-74 | the last name is stored; the earlier fields are kept |
| PostUser.Email | src/api/post/user.rs:84-98 | the email is stored; the earlier fields are kept; not a machine service; no roles |
| PostUser.AddRole | src/api/post/user.rs:102-106 | one role appended at the end; nothing else changes |
| PostUser.AddEachAppends | src/api/post/user.rs:108-118 | adding roles one at a time appends them all, in order |
| PostUser.AddRoles | src/api/post/user.rs:108-118 | equals `add_role` on each role in turn: the roles appended in order, nothing else changed |
| PostUser.NewUserPath | src/api/post/user.rs:128 | the path splits into exactly `accounts`, the account id's text and `newuser` |
| PostUser.Body | src/api/post/user.rs:6-16 | the serialised body carries every field except the account id |
| PostUser.NewUserPathNamesAccount | src/api/post/user.rs:128 | the path is `accounts/{id}/newuser`, and its middle segment parses back to the account id |
| PostUser.AccountOnlyInPath | src/api/post/user.rs:9-10 | users differing only in account have the same body and different paths |
| PostOverrides.Name | src/api/post/overrides.rs:32-37 | the name is stored |
| PostOverrides.SatelliteUrl | src/api/post/overrides.rs:59-67 | the satellite is stored; the name is kept |
| PostOverrides.SatelliteId | src/api/post/overrides.rs:48-55 | the satellite step with the URL of `satellites/{id}` |
| PostOverrides.SatelliteConfigurationUrl | src/api/post/overrides.rs:93-108 | name and satellite are kept; the configuration is stored; there are no properties |
| PostOverrides.SatelliteConfigurationIdAsWritten | src/api/post/overrides.rs:79-89 | as written, the configuration step stores the URL of `satellites/{id}` |
| PostOverrides.SatelliteConfigurationId | src/api/post/overrides.rs:79-89 | corrected, the configuration step stores the URL the configuration's read call fetches |
| PostOverrides.ConfigurationIdNamesSatellite | src/api/post/overrides.rs:83-86 | as written, the stored configuration is the satellite's URL and differs from the corrected one for every id |
| PostOverrides.StagesCarryForward | src/api/post/overrides.rs:31-109 | name and satellite reach the finished body, whichever configuration step is used |
| PostOverrides.AddProperty | src/api/post/overrides.rs:112-115 | the key maps to the value; the keys grow by that key only; other keys and other fields are unchanged |
| PostOverrides.AddPropertyLaws | src/api/post/overrides.rs:112-115 | re-adding a key replaces its value; adding two different keys commutes |
| PostSatellite.Name | src/api/post/satellite.rs:30-35 | the name is stored |
| PostSatellite.SatelliteConfigurationUrl | src/api/post/satellite.rs:43-54 | the configuration is stored; the name is kept |
| PostSatellite.SatelliteConfigurationId | src/api/post/satellite.rs:61-71 | the configuration step with the URL the satellite configuration's read call fetches |
| PostSatellite.NoradId | src/api/post/satellite.rs:80-92 | name and configuration are kept, the NORAD id is stored, and there is no description |
| PostSatellite.Description | src/api/post/satellite.rs:96-99 | sets the description and nothing else |
| PostSatellite.BuildLaws | src/api/post/satellite.rs:29-99 | every stage's choice reaches the body, and the last description wins |

## Left out

- HTTP transport (reqwest, basic auth, universal headers): the transport's `get`, `post` and `delete` are parameters. The plain client returns Ok for every status, so non-2xx replies reach the classification and the cache.
- Concurrency in the caching client: `tokio::spawn`, single-flight coalescing of concurrent misses, and capacity-based eviction belong to the cache library. The cache is a map that never evicts, and the capacity is only carried.
- The mapping of a failed spawned task to `Response`: a panicking or cancelled task is outside a sequential model.
- `config_mut`: a mutable borrow of the inner configuration; equality through `config()` is modelled.
- `Arc` reference counts: `unwrap_or_clone` returns an equal value either way, and that equal value is what is modelled.
- JSON (de)serialisation, `String::from_utf8_lossy`, URL parsing, `Url::join`, `Url::set_query` encoding and ISO 8601 time formatting are parameters.
- Pagination.Paginate: the stream is cut after a given number of pages. The lazy stream has no bound, and `PaginateFuelPrefix` shows the cut only truncates it.
- Endpoints.Locate: the two streams that `unwrap` a formatted time (src/api.rs:931-932, 1046-1047) would panic on a time that does not format once the path has joined. The model requires the caller to avoid that; a failed join is modelled, since it returns its `InvalidUri` before the times are touched.
- Endpoints.ParamsOf: the status/account/time stream's query carries the account under `account`, the corrected key of the first finding below. The source sends `satelliteNames`; `Endpoints.StatusAccountQueryAsWritten` is that query.
- Endpoints.Locate: for the status/account/time stream, the URL carries the corrected `account` key. `Endpoints.StatusAccountLocateAsWritten` is the URL the source requests, and its contract states how it differs from `Locate`.
- Endpoints.StreamOf: the status/account/time stream is walked from the corrected URL, with the `account` key.
- Endpoints.QueryReadsBack: the status/account/time query that reads back is the corrected one, with the `account` key; `Endpoints.AccountSentAsSatelliteNames` states what the as-written query reads back.
- PostRequest.BandUrls: the target date's formatting is unwrapped in the code (src/api/post/request.rs:326), so a time the formatter rejects is excluded by a precondition instead of modelled as a panic.
- Endpoints: query values are inserted without percent-encoding. The read-back lemmas therefore require values free of `&`.
- Endpoints.QueryReadsBack: states the round trip for the query as the `set_query` text. How the URL library encodes it is not modelled.
- Band-detail frequencies, EIRP and gain are IEEE doubles. They are kept as 64-bit patterns, because the builder only carries them.
- The builders' `path_to_url(...).to_string()` is a total parameter from path to URL text. The satellite-configuration `band_ids` is the exception: it keeps the `Result` of `path_to_url`.
- `UrlResult` and its `try_convert` are not part of this model. The conversion of a band entry is a parameter.
- Every `send()` and the network half of the `delete_*`/`get_*` calls are I/O. What remains of them is modelled: the URL each builds and how each classifies the reply.
- The mock client, the async extension traits for requests, tasks, accounts and users, gateway licenses and bundles are not part of this model. They are stubs or thin wrappers around calls this model does not contain.
- Client construction from the environment (`from_env`, `from_config`) reads configuration and is not modelled.

## Findings

| source | as written | input that shows it | evidently intended | confidence | as-written member | corrected member |
|---|---|---|---|---|---|---|
| src/api.rs:1042-1048 | the account URI goes out under the key `satelliteNames` in `findAllByStatusAndAccountAndTargetDateBetween` | any status `s`, account `a`, times `t0`, `t1`: the query `status=s&satelliteNames=a&start=t0&end=t1` has no `account` key | `account=a`, as the endpoint name and the sibling account queries (src/api.rs:762-767) use | medium, not executed | Endpoints.StatusAccountQueryAsWritten, Endpoints.StatusAccountLocateAsWritten, Endpoints.AccountSentAsSatelliteNames | Endpoints.StatusAccountQuery, Endpoints.StatusAccountQueryReadsBack |
| src/api/post/overrides.rs:79-89 | `satellite_configuration_id(id)` stores the URL of `satellites/{id}` | any id, e.g. 7: the override's configuration is `…/satellites/7` | `satellite_configurations/{id}`, as `satellite_configuration_id` of the satellite builder builds it (src/api/post/satellite.rs:61-71) | high, not executed | PostOverrides.SatelliteConfigurationIdAsWritten, PostOverrides.ConfigurationIdNamesSatellite | PostOverrides.SatelliteConfigurationId |

=== FILE: api.dfy ===
/**
 * The deterministic layer of the `Api` trait between the transport and the caller: the
 * `Inner` container, the one-element error stream, status classification, the single-item
 * JSON fetch for GET and POST, `path_to_url`, and reading an FPS token out of a reply.
 *
 * Collaborators the client does not own are parameters: the transport's `get`/`post`, the
 * lossy UTF-8 decoding of a body, the JSON decoder of the target type and the URL join.
 */
module Api {
  import opened Results
  import opened Ints
  import opened Http
  import opened Errors
  import opened JsonValues
  import Decimal

  /** A transport GET: a body and a status (for every status, 2xx or not) or a transport error. */
  type Getter = Url -> Result<RawResponse, Error>

  /** A transport POST of a message of type `M`. */
  type Poster<!M> = (Url, M) -> Result<RawResponse, Error>

  /** `String::from_utf8_lossy`. */
  type Lossy = Bytes -> string

  /** A JSON decoder for values of type `T`. */
  type Decoder<T> = string -> Result<T, JsonError>

  /** `Url::join`: a base URL and a (possibly relative) reference. */
  type Joiner = (Url, string) -> Result<Url, UrlParseError>

  // ---------------------------------------------------------------- containers

  /** The plain client's container: a value held directly. */
  datatype Inner<T> = Inner(value: T)

  function NewInner<T>(x: T): (c: Inner<T>)
    ensures Deref(c) == x
  {
    Inner(x)
  }

  /** Read access through the container. */
  function Deref<T>(c: Inner<T>): (x: T)
    ensures Inner(x) == c
  {
    c.value
  }

  /** `into_inner`: the owned value, the same one reading through the container sees. */
  function IntoInner<T>(c: Inner<T>): (x: T)
    ensures x == Deref(c)
    ensures NewInner(x) == c
  {
    c.value
  }

  // ---------------------------------------------------------------- error stream

  /** `once_err`: a stream that yields the one error and ends. */
  function OnceErr<T>(e: Error): (s: seq<Result<T, Error>>)
    ensures |s| == 1 && s[0].Err? && s[0].error == e
  {
    [Err(e)]
  }

  // ---------------------------------------------------------------- status and decoding

  /** `error_on_non_success`: passes exactly the 2xx statuses; otherwise keeps status and body text. */
  function ErrorOnNonSuccess(status: StatusCode, body: Bytes, lossy: Lossy): (r: Result<(), Error>)
    ensures r.Ok? <==> IsSuccess(status)
    ensures r.Err? ==> r.error == ResponseStatus(status, lossy(body))
  {
    if !IsSuccess(status) then Err(ResponseStatus(status, lossy(body))) else Ok(())
  }

  /**
   * The shared tail of `get_json_map` and `post_json_map`: a transport error propagates
   * unchanged, then a non-2xx status becomes `ResponseStatus`, and only then is the body
   * decoded, a decoding failure becoming `Deserialization`.
   */
  function DecodeReply<T>(reply: Result<RawResponse, Error>, lossy: Lossy, decode: Decoder<T>): (r: Result<T, Error>)
    ensures reply.Err? ==> r == Err(reply.error)
    ensures reply.Ok? && !IsSuccess(reply.value.status) ==>
              r == Err(ResponseStatus(reply.value.status, lossy(reply.value.body)))
    ensures r.Ok? ==> reply.Ok? && IsSuccess(reply.value.status)
                      && decode(lossy(reply.value.body)) == Ok(r.value)
    ensures reply.Ok? && IsSuccess(reply.value.status) && decode(lossy(reply.value.body)).Err? ==>
              r == Err(Deserialization(decode(lossy(reply.value.body)).error.text))
  {
    match reply
    case Err(e) => Err(e)
    case Ok(RawResponse(body, status)) =>
      match ErrorOnNonSuccess(status, body, lossy)
      case Err(e) => Err(e)
      case Ok(_) =>
        match decode(lossy(body))
        case Ok(v) => Ok(v)
        case Err(j) => Err(FromJson(j))
  }

  /** Only a 2xx body reaches the decoder: otherwise the decoder cannot change the outcome. */
  lemma DecoderSeesOnlySuccess<T>(reply: Result<RawResponse, Error>, lossy: Lossy, d1: Decoder<T>, d2: Decoder<T>)
    requires reply.Err? || !IsSuccess(reply.value.status)
    ensures DecodeReply(reply, lossy, d1) == DecodeReply(reply, lossy, d2)
  {
  }

  /** `get_json_map`: one GET of `url`, classified as `DecodeReply` does. */
  function GetJsonMap<T>(get: Getter, lossy: Lossy, decode: Decoder<T>, url: Url): (r: Result<T, Error>)
    ensures get(url).Err? ==> r == Err(get(url).error)
    ensures r.Ok? ==> get(url).Ok? && IsSuccess(get(url).value.status)
                      && decode(lossy(get(url).value.body)) == Ok(r.value)
    ensures get(url).Ok? && !IsSuccess(get(url).value.status) ==>
              r == Err(ResponseStatus(get(url).value.status, lossy(get(url).value.body)))
    ensures get(url).Ok? && IsSuccess(get(url).value.status) && decode(lossy(get(url).value.body)).Err? ==>
              r == Err(Deserialization(decode(lossy(get(url).value.body)).error.text))
  {
    DecodeReply(get(url), lossy, decode)
  }

  /** `post_json_map`: one POST of `msg` to `url`, classified as `DecodeReply` does. */
  function PostJsonMap<M, T>(post: Poster<M>, lossy: Lossy, decode: Decoder<T>, url: Url, msg: M): (r: Result<T, Error>)
    ensures post(url, msg).Err? ==> r == Err(post(url, msg).error)
    ensures r.Ok? ==> post(url, msg).Ok? && IsSuccess(post(url, msg).value.status)
                      && decode(lossy(post(url, msg).value.body)) == Ok(r.value)
    ensures post(url, msg).Ok? && !IsSuccess(post(url, msg).value.status) ==>
              r == Err(ResponseStatus(post(url, msg).value.status, lossy(post(url, msg).value.body)))
    ensures post(url, msg).Ok? && IsSuccess(post(url, msg).value.status) && decode(lossy(post(url, msg).value.body)).Err? ==>
              r == Err(Deserialization(decode(lossy(post(url, msg).value.body)).error.text))
  {
    DecodeReply(post(url, msg), lossy, decode)
  }

  /** The `_embedded` wrapper a collection reply comes in: the payload is its `items`. */
  datatype Embedded<T> = Embedded(items: T)

  /** The `content` wrapper: the payload is its `inner` value. */
  datatype Content<T> = Content(inner: T)

  /**
   * A collection fetch (`get_json_map` of the embedded wrapper, then `.items`): the same
   * outcome as the wrapped fetch, with the payload unwrapped.
   */
  function GetItems<T>(get: Getter, lossy: Lossy, decode: Decoder<Embedded<T>>, url: Url): (r: Result<T, Error>)
    ensures r.Ok? <==> GetJsonMap(get, lossy, decode, url).Ok?
    ensures r.Ok? ==> r.value == GetJsonMap(get, lossy, decode, url).value.items
    ensures r.Err? ==> r.error == GetJsonMap(get, lossy, decode, url).error
  {
    match GetJsonMap(get, lossy, decode, url)
    case Err(e) => Err(e)
    case Ok(wrapped) => Ok(wrapped.items)
  }

  /** The fixed text a failed file download reports in place of the server's body. */
  const FAILED_TO_FETCH_FILE: Bytes :=
    [70, 97, 105, 108, 101, 100, 32, 116, 111, 32, 102, 101, 116, 99, 104, 32, 102, 105, 108, 101]

  /**
   * `get_file_by_task_id_and_name` after the GET: the raw body on a 2xx status; otherwise
   * `ResponseStatus` whose text is the fixed message, not the body the server sent.
   */
  function FetchFile(reply: Result<RawResponse, Error>, lossy: Lossy): (r: Result<Bytes, Error>)
    ensures reply.Err? ==> r == Err(reply.error)
    ensures r.Ok? <==> reply.Ok? && IsSuccess(reply.value.status)
    ensures r.Ok? ==> r.value == reply.value.body
    ensures reply.Ok? && !IsSuccess(reply.value.status) ==>
              r == Err(ResponseStatus(reply.value.status, lossy(FAILED_TO_FETCH_FILE)))
  {
    match reply
    case Err(e) => Err(e)
    case Ok(RawResponse(body, status)) =>
      match ErrorOnNonSuccess(status, FAILED_TO_FETCH_FILE, lossy)
      case Err(e) => Err(e)
      case Ok(_) => Ok(body)
  }

  /** Whatever body a failed download carried, the caller sees the same error. */
  lemma FileErrorIgnoresBody(status: StatusCode, body1: Bytes, body2: Bytes, lossy: Lossy)
    requires !IsSuccess(status)
    ensures FetchFile(Ok(RawResponse(body1, status)), lossy) == FetchFile(Ok(RawResponse(body2, status)), lossy)
  {
  }

  /** The `delete_*` calls after the DELETE: a transport error, then the status check, then `()`. */
  function DeleteReply(reply: Result<RawResponse, Error>, lossy: Lossy): (r: Result<(), Error>)
    ensures reply.Err? ==> r == Err(reply.error)
    ensures r.Ok? <==> reply.Ok? && IsSuccess(reply.value.status)
    ensures reply.Ok? && !IsSuccess(reply.value.status) ==>
              r == Err(ResponseStatus(reply.value.status, lossy(reply.value.body)))
  {
    match reply
    case Err(e) => Err(e)
    case Ok(RawResponse(body, status)) => ErrorOnNonSuccess(status, body, lossy)
  }

  /** `path_to_url`: the path joined onto the entrypoint; a join failure becomes `InvalidUri`. */
  function PathToUrl(entrypoint: Url, join: Joiner, path: string): (r: Result<Url, Error>)
    ensures r.Ok? <==> join(entrypoint, path).Ok?
    ensures r.Ok? ==> r.value == join(entrypoint, path).value
    ensures r.Err? ==> r.error == InvalidUri(join(entrypoint, path).error.text)
  {
    match join(entrypoint, path)
    case Ok(u) => Ok(u)
    case Err(p) => Err(FromUrlParse(p))
  }

  // ---------------------------------------------------------------- FPS tokens

  const MISSING_TOKEN: string := "Missing token field"
  const INVALID_TOKEN: string := "Invalid type for token"

  /**
   * Reading the token out of the decoded reply: a missing `"token"` key (or a reply that is
   * not an object) and a non-string token are the two distinct failures.
   */
  function ExtractToken(v: Json): (r: Result<string, Error>)
    ensures r.Ok? <==> v.Object? && "token" in v.fields && v.fields["token"].Str?
    ensures r.Ok? ==> v.fields["token"] == Str(r.value)
    ensures !(v.Object? && "token" in v.fields) ==> r == Err(Response(MISSING_TOKEN))
    ensures v.Object? && "token" in v.fields && !v.fields["token"].Str? ==> r == Err(Response(INVALID_TOKEN))
  {
    match Get(v, "token")
    case None => Err(Response(MISSING_TOKEN))
    case Some(t) =>
      match AsStr(t)
      case None => Err(Response(INVALID_TOKEN))
      case Some(s) => Ok(s)
  }

  /** The body of an FPS token request naming a band and a site configuration. */
  function TokenPayloadBySiteConfiguration(bandId: u32, siteConfigurationId: u32): (j: Json)
    ensures j.Object? && j.fields.Keys == {"band", "configuration"}
    ensures j.fields["band"] == Str("/api/satellite_bands/" + Decimal.NatToText(bandId))
    ensures j.fields["configuration"] == Str("/api/configurations/" + Decimal.NatToText(siteConfigurationId))
  {
    Object(map[
      "band" := Str("/api/satellite_bands/" + Decimal.NatToText(bandId)),
      "configuration" := Str("/api/configurations/" + Decimal.NatToText(siteConfigurationId))])
  }

  /** The body of an FPS token request naming a band and a satellite. */
  function TokenPayloadBySatellite(bandId: u32, satelliteId: u32): (j: Json)
    ensures j.Object? && j.fields.Keys == {"band", "satellite"}
    ensures j.fields["band"] == Str("/api/satellite_bands/" + Decimal.NatToText(bandId))
    ensures j.fields["satellite"] == Str("/api/satellites/" + Decimal.NatToText(satelliteId))
  {
    Object(map[
      "band" := Str("/api/satellite_bands/" + Decimal.NatToText(bandId)),
      "satellite" := Str("/api/satellites/" + Decimal.NatToText(satelliteId))])
  }

  /**
   * `new_token_by_*`: resolve the `fps` path, POST the payload, decode the reply as JSON and
   * read the token. The first failure along that chain is the result.
   */
  function NewToken(entrypoint: Url, join: Joiner, post: Poster<Json>, lossy: Lossy,
                    decode: Decoder<Json>, payload: Json): (r: Result<string, Error>)
    ensures join(entrypoint, "fps").Err? ==> r == Err(InvalidUri(join(entrypoint, "fps").error.text))
    ensures join(entrypoint, "fps").Ok? ==>
              var reply := post(join(entrypoint, "fps").value, payload);
              && (reply.Err? ==> r == Err(reply.error))
              && (reply.Ok? && !IsSuccess(reply.value.status) ==>
                    r == Err(ResponseStatus(reply.value.status, lossy(reply.value.body))))
              && (reply.Ok? && IsSuccess(reply.value.status) && decode(lossy(reply.value.body)).Err? ==>
                    r == Err(Deserialization(decode(lossy(reply.value.body)).error.text)))
              && (reply.Ok? && IsSuccess(reply.value.status) && decode(lossy(reply.value.body)).Ok? ==>
                    r == ExtractToken(decode(lossy(reply.value.body)).value))
    ensures r.Ok? ==>
              && join(entrypoint, "fps").Ok?
              && var url := join(entrypoint, "fps").value;
              && post(url, payload).Ok?
              && IsSuccess(post(url, payload).value.status)
              && decode(lossy(post(url, payload).value.body)).Ok?
              && ExtractToken(decode(lossy(post(url, payload).value.body)).value) == Ok(r.value)
  {
    match PathToUrl(entrypoint, join, "fps")
    case Err(e) => Err(e)
    case Ok(url) =>
      match PostJsonMap(post, lossy, decode, url, payload)
      case Err(e) => Err(e)
      case Ok(v) => ExtractToken(v)
  }

  /**
   * Only the reply of the one POST of the payload to the `fps` URL matters: two transports
   * that agree on it give the same token or the same error, and with a bad `fps` path the
   * transport plays no part.
   */
  lemma NewTokenReadsOnlyFpsReply(entrypoint: Url, join: Joiner, post1: Poster<Json>, post2: Poster<Json>,
                                  lossy: Lossy, decode: Decoder<Json>, payload: Json)
    requires join(entrypoint, "fps").Ok? ==>
               post1(join(entrypoint, "fps").value, payload) == post2(join(entrypoint, "fps").value, payload)
    ensures NewToken(entrypoint, join, post1, lossy, decode, payload) == NewToken(entrypoint, join, post2, lossy, decode, payload)
  {
  }

  /** `new_token_by_site_configuration_id`: the token for the band and site-configuration payload. */
  function NewTokenBySiteConfigurationId(entrypoint: Url, join: Joiner, post: Poster<Json>, lossy: Lossy,
                                         decode: Decoder<Json>, bandId: u32, siteConfigurationId: u32)
    : (r: Result<string, Error>)
    ensures r == NewToken(entrypoint, join, post, lossy, decode, TokenPayloadBySiteConfiguration(bandId, siteConfigurationId))
    ensures r.Ok? ==>
              var sent := post(join(entrypoint, "fps").value, TokenPayloadBySiteConfiguration(bandId, siteConfigurationId));
              sent.Ok? && ExtractToken(decode(lossy(sent.value.body)).value) == Ok(r.value)
  {
    NewToken(entrypoint, join, post, lossy, decode, TokenPayloadBySiteConfiguration(bandId, siteConfigurationId))
  }

  /** `new_token_by_satellite_id`: the token for the band and satellite payload. */
  function NewTokenBySatelliteId(entrypoint: Url, join: Joiner, post: Poster<Json>, lossy: Lossy,
                                 decode: Decoder<Json>, bandId: u32, satelliteId: u32)
    : (r: Result<string, Error>)
    ensures r == NewToken(entrypoint, join, post, lossy, decode, TokenPayloadBySatellite(bandId, satelliteId))
    ensures r.Ok? ==>
              var sent := post(join(entrypoint, "fps").value, TokenPayloadBySatellite(bandId, satelliteId));
              sent.Ok? && ExtractToken(decode(lossy(sent.value.body)).value) == Ok(r.value)
  {
    NewToken(entrypoint, join, post, lossy, decode, TokenPayloadBySatellite(bandId, satelliteId))
  }

  /**
   * The two entry points post different bodies: the site-configuration payload names a
   * `configuration` and no `satellite`, the satellite payload the reverse.
   */
  lemma TokenPayloadsDiffer(bandId: u32, siteConfigurationId: u32, satelliteId: u32)
    ensures TokenPayloadBySiteConfiguration(bandId, siteConfigurationId) != TokenPayloadBySatellite(bandId, satelliteId)
  {
  }
}

=== FILE: base.dfy ===
/** Rust's `Option` and `Result`, the shapes every fallible operation of the client returns. */
module Results {

  datatype Option<+T> = None | Some(value: T)

  datatype Result<+T, +E> = Ok(value: T) | Err(error: E) {

    predicate IsFailure() {
      Err?
    }

    function PropagateFailure<U>(): Result<U, E>
      requires Err?
    {
      Err(error)
    }

    function Extract(): T
      requires Ok?
    {
      value
    }
  }
}

/** The fixed-width integers of the Rust source, as ranges of unbounded integers. */
module Ints {

  const I32_MIN: int := -0x8000_0000
  const I32_MAX: int := 0x7fff_ffff

  type u8 = x: int | 0 <= x < 0x100
  type u16 = x: int | 0 <= x < 0x1_0000
  type u32 = x: int | 0 <= x < 0x1_0000_0000
  type u64 = x: int | 0 <= x < 0x1_0000_0000_0000_0000
  type i32 = x: int | -0x8000_0000 <= x <= 0x7fff_ffff
}

=== FILE: caching.dfy ===
/**
 * The caching client, seen one call at a time: a plain client plus a map from URL to the
 * `(body, status)` pair the plain client returned for it. A `get` is answered from the map when
 * it can be; otherwise the plain client is asked, and only a reply that arrived (whatever its
 * status) is remembered. Concurrent callers, single-flight coalescing and capacity eviction
 * belong to the cache library and are not modelled.
 */
module Caching {
  import opened Results
  import opened Ints
  import opened Http
  import opened Errors
  import opened Api

  /** The parts of the client configuration that equality looks at. */
  datatype Config = Config(environment: string, key: string, secret: string)

  /** The plain client: its configuration and the headers it adds to every request. */
  datatype Client = Client(config: Config, universalHeaders: seq<(string, string)>)

  /** `Client`'s equality: the configurations, and nothing else. */
  predicate SameClient(a: Client, b: Client) {
    a.config == b.config
  }

  datatype CachingClient = CachingClient(inner: Client, capacity: u64, cache: map<Url, RawResponse>)

  /** `CachingClient::new`: the given client and an empty cache. */
  function NewCachingClient(client: Client, capacity: u64): (c: CachingClient)
    ensures c.inner == client && c.capacity == capacity
    ensures |c.cache| == 0
  {
    CachingClient(client, capacity, map[])
  }

  /** `CachingClient`'s equality: the inner clients only, never the cache. */
  predicate SameCachingClient(a: CachingClient, b: CachingClient) {
    SameClient(a.inner, b.inner)
  }

  /** `config()`: the inner client's configuration. */
  function ConfigOf(c: CachingClient): Config
  {
    c.inner.config
  }

  /** Two caching clients are equal exactly when they report the same configuration. */
  lemma EqualityIsConfigEquality(a: CachingClient, b: CachingClient)
    ensures SameCachingClient(a, b) <==> ConfigOf(a) == ConfigOf(b)
  {
  }

  /** What one `get` hands back: the reply, the client afterwards, and whether the inner client was asked. */
  datatype GetOutcome = GetOutcome(reply: Result<RawResponse, Error>, client: CachingClient, fetched: bool)

  /**
   * `CachingClient::get` for one URL, with `fetch` the inner client's `get` at the time of the
   * call. A hit never reaches the inner client; a miss reaches it once; an `Ok` reply is stored
   * under exactly that URL and an error is passed back without being stored.
   */
  function Get(c: CachingClient, url: Url, fetch: Getter): (r: GetOutcome)
    ensures r.fetched <==> url !in c.cache
    ensures r.client.inner == c.inner && r.client.capacity == c.capacity
    ensures r.fetched ==> r.reply == fetch(url)
    ensures !r.fetched ==> r.reply == Ok(c.cache[url])
    ensures r.reply.Ok? ==> url in r.client.cache && r.client.cache[url] == r.reply.value
    ensures r.reply.Err? ==> r.client == c
    ensures r.client.cache.Keys == c.cache.Keys + (if r.reply.Ok? then {url} else {})
    ensures forall u :: u in c.cache ==> u in r.client.cache && r.client.cache[u] == c.cache[u]
  {
    if url in c.cache then GetOutcome(Ok(c.cache[url]), c, false)
    else
      match fetch(url)
      case Err(e) => GetOutcome(Err(e), c, true)
      case Ok(resp) => GetOutcome(Ok(resp), c.(cache := c.cache[url := resp]), true)
  }

  /** `invalidate_all`: the cache emptied, the client kept. */
  function InvalidateAll(c: CachingClient): (r: CachingClient)
    ensures r.inner == c.inner && r.capacity == c.capacity
    ensures forall u :: u !in r.cache
  {
    c.(cache := map[])
  }

  /** What a `delete` or `post` hands back: the inner client's reply and the client afterwards. */
  datatype PassOutcome = PassOutcome(reply: Result<RawResponse, Error>, client: CachingClient)

  /** `delete`: the inner client's DELETE, the cache untouched. */
  function Delete(c: CachingClient, url: Url, delete: Getter): (r: PassOutcome)
    ensures r.client == c
    ensures r.reply == delete(url)
  {
    PassOutcome(delete(url), c)
  }

  /** `post`: the inner client's POST, the cache untouched. */
  function Post<M>(c: CachingClient, url: Url, msg: M, post: Poster<M>): (r: PassOutcome)
    ensures r.client == c
    ensures r.reply == post(url, msg)
  {
    PassOutcome(post(url, msg), c)
  }

  // ---------------------------------------------------------------- the shared container

  /** `Arc<T>`: a value behind a shared handle. Reference counts are not modelled. */
  datatype Shared<T> = Shared(value: T)

  function NewShared<T>(x: T): (s: Shared<T>)
    ensures s.value == x
  {
    Shared(x)
  }

  /** `Container::into_inner` for `Arc` (`unwrap_or_clone`): the wrapped value, or an equal copy. */
  function SharedIntoInner<T>(s: Shared<T>): (x: T)
    ensures x == s.value
  {
    s.value
  }

  /** Both containers hand back what they were built from, so generic code sees the same value. */
  lemma ContainersAgree<T>(x: T)
    ensures SharedIntoInner(NewShared(x)) == x
    ensures SharedIntoInner(NewShared(x)) == IntoInner(NewInner(x))
  {
  }

  // ---------------------------------------------------------------- a stable server

  /** Every remembered reply is what `fetch` gives for its URL now. */
  ghost predicate Coherent(cache: map<Url, RawResponse>, fetch: Getter) {
    forall u :: u in cache ==> fetch(u) == Ok(cache[u])
  }

  /** Against a server whose answers match the cache, a `get` returns exactly what the server would. */
  lemma GetIsTransparent(c: CachingClient, url: Url, fetch: Getter)
    requires Coherent(c.cache, fetch)
    ensures Get(c, url, fetch).reply == fetch(url)
    ensures Coherent(Get(c, url, fetch).client.cache, fetch)
  {
  }

  /** A run of `get`s: the replies in call order, the client at the end, and the URLs the inner client was asked for. */
  datatype Trace = Trace(replies: seq<Result<RawResponse, Error>>, client: CachingClient, misses: seq<Url>)

  /** The `get`s of `urls`, one after another, against the server `fetch`. */
  function Replay(c: CachingClient, urls: seq<Url>, fetch: Getter): (t: Trace)
    ensures |t.replies| == |urls|
    ensures t.client.inner == c.inner && t.client.capacity == c.capacity
    ensures c.cache.Keys <= t.client.cache.Keys
    ensures forall k :: 0 <= k < |t.misses| ==> t.misses[k] in urls
    decreases |urls|
  {
    if |urls| == 0 then Trace([], c, [])
    else
      var first := Get(c, urls[0], fetch);
      var rest := Replay(first.client, urls[1..], fetch);
      Trace([first.reply] + rest.replies, rest.client,
            (if first.fetched then [urls[0]] else []) + rest.misses)
  }

  /** From a coherent cache, each reply of a run is the server's answer for that URL. */
  lemma {:induction false} ReplayIsTransparent(c: CachingClient, urls: seq<Url>, fetch: Getter)
    requires Coherent(c.cache, fetch)
    ensures forall k :: 0 <= k < |urls| ==> Replay(c, urls, fetch).replies[k] == fetch(urls[k])
    ensures Coherent(Replay(c, urls, fetch).client.cache, fetch)
    decreases |urls|
  {
    if |urls| > 0 {
      var first := Get(c, urls[0], fetch);
      GetIsTransparent(c, urls[0], fetch);
      ReplayIsTransparent(first.client, urls[1..], fetch);
      var t := Replay(c, urls, fetch);
      forall k | 0 <= k < |urls| ensures t.replies[k] == fetch(urls[k]) {
        if k > 0 {
          assert t.replies[k] == Replay(first.client, urls[1..], fetch).replies[k - 1];
          assert urls[k] == urls[1..][k - 1];
        }
      }
    }
  }

  predicate Distinct(s: seq<Url>) {
    forall i, j :: 0 <= i < j < |s| ==> s[i] != s[j]
  }

  /** The URLs a sequence mentions. */
  function Elements(s: seq<Url>): (e: set<Url>)
    ensures forall u :: u in e <==> u in s
  {
    set u | u in s
  }

  lemma ElementsCons(s: seq<Url>)
    requires |s| > 0
    ensures Elements(s) == {s[0]} + Elements(s[1..])
  {
    assert s == [s[0]] + s[1..];
  }

  lemma DistinctCons(x: Url, s: seq<Url>)
    requires Distinct(s) && x !in s
    ensures Distinct([x] + s)
  {
    var t := [x] + s;
    forall i, j | 0 <= i < j < |t| ensures t[i] != t[j] {
      assert t[j] == s[j - 1];
      if i > 0 { assert t[i] == s[i - 1]; }
    }
  }

  /** The server answers every URL of the run. */
  ghost predicate AllAnswered(urls: seq<Url>, fetch: Getter) {
    forall k :: 0 <= k < |urls| ==> fetch(urls[k]).Ok?
  }

  lemma AllAnsweredTail(urls: seq<Url>, fetch: Getter)
    requires |urls| > 0 && AllAnswered(urls, fetch)
    ensures fetch(urls[0]).Ok? && AllAnswered(urls[1..], fetch)
  {
    forall k | 0 <= k < |urls[1..]| ensures fetch(urls[1..][k]).Ok? {
      assert urls[1..][k] == urls[k + 1];
    }
  }

  /** A run the server answers in full leaves every URL it touched in the cache. */
  lemma {:induction false} ReplayCachesEveryUrl(c: CachingClient, urls: seq<Url>, fetch: Getter)
    requires AllAnswered(urls, fetch)
    ensures Replay(c, urls, fetch).client.cache.Keys == c.cache.Keys + Elements(urls)
    decreases |urls|
  {
    if |urls| > 0 {
      AllAnsweredTail(urls, fetch);
      var first := Get(c, urls[0], fetch);
      ReplayCachesEveryUrl(first.client, urls[1..], fetch);
      ElementsCons(urls);
    }
  }

  /**
   * The inner client is asked for exactly the URLs of the run the cache did not hold at its
   * start, whether or not the server answers them.
   */
  lemma {:induction false} ReplayMissesAreNewUrls(c: CachingClient, urls: seq<Url>, fetch: Getter)
    ensures forall u :: u in Replay(c, urls, fetch).misses <==> u in urls && u !in c.cache
    decreases |urls|
  {
    if |urls| > 0 {
      var first := Get(c, urls[0], fetch);
      ReplayMissesAreNewUrls(first.client, urls[1..], fetch);
      ElementsCons(urls);
    }
  }

  /** No URL is asked for twice. */
  lemma {:induction false} ReplayMissesDistinct(c: CachingClient, urls: seq<Url>, fetch: Getter)
    requires AllAnswered(urls, fetch)
    ensures Distinct(Replay(c, urls, fetch).misses)
    decreases |urls|
  {
    if |urls| > 0 {
      AllAnsweredTail(urls, fetch);
      var first := Get(c, urls[0], fetch);
      var rest := Replay(first.client, urls[1..], fetch);
      ReplayMissesDistinct(first.client, urls[1..], fetch);
      ReplayMissesAreNewUrls(first.client, urls[1..], fetch);
      if first.fetched {
        assert urls[0] !in rest.misses;
        DistinctCons(urls[0], rest.misses);
      }
    }
  }

  /**
   * When the server answers every URL of a run, the inner client is asked once for each URL the
   * cache did not hold at the start and never for anything else: the network calls number the
   * distinct misses, not the calls.
   */
  lemma ReplayFetchesEachMissOnce(c: CachingClient, urls: seq<Url>, fetch: Getter)
    requires AllAnswered(urls, fetch)
    ensures Distinct(Replay(c, urls, fetch).misses)
    ensures forall u :: u in Replay(c, urls, fetch).misses <==> u in urls && u !in c.cache
    ensures Replay(c, urls, fetch).client.cache.Keys == c.cache.Keys + Elements(urls)
  {
    ReplayMissesDistinct(c, urls, fetch);
    ReplayMissesAreNewUrls(c, urls, fetch);
    ReplayCachesEveryUrl(c, urls, fetch);
  }

  /**
   * Without an answer from the server nothing is cached, so a URL whose fetch fails is asked
   * for again at each of its `get`s: `n` calls make `n` fetches and leave the client as it was.
   */
  lemma {:induction false} FailingUrlFetchedEachTime(c: CachingClient, url: Url, n: nat, fetch: Getter)
    requires url !in c.cache
    requires fetch(url).Err?
    ensures Replay(c, seq(n, _ => url), fetch).misses == seq(n, _ => url)
    ensures Replay(c, seq(n, _ => url), fetch).client == c
    decreases n
  {
    if n > 0 {
      var urls := seq(n, _ => url);
      assert urls[0] == url;
      assert urls[1..] == seq(n - 1, _ => url);
      FailingUrlFetchedEachTime(c, url, n - 1, fetch);
      assert [url] + seq(n - 1, _ => url) == urls;
    }
  }

  // ---------------------------------------------------------------- a changing server

  /** A failed fetch leaves nothing behind: the next `get` of the URL asks the inner client again. */
  lemma FailedFetchIsRetried(c: CachingClient, url: Url, before: Getter, after: Getter)
    requires url !in c.cache
    requires before(url).Err?
    ensures Get(c, url, before).reply == before(url)
    ensures Get(Get(c, url, before).client, url, after).fetched
    ensures Get(Get(c, url, before).client, url, after).reply == after(url)
  {
  }

  /**
   * A reply that arrived, whatever its status, is kept: later `get`s of the URL return it even
   * after the server has changed its answer. A 404 is remembered as faithfully as a 200.
   */
  lemma StoredReplyOutlivesServer(c: CachingClient, url: Url, before: Getter, after: Getter)
    requires url !in c.cache
    requires before(url).Ok?
    ensures Get(c, url, before).reply == before(url)
    ensures !Get(Get(c, url, before).client, url, after).fetched
    ensures Get(Get(c, url, before).client, url, after).reply == before(url)
  {
  }

  /** After `invalidate_all`, a `get` of a URL that was cached asks the inner client again. */
  lemma InvalidateThenRefetch(c: CachingClient, url: Url, fetch: Getter)
    requires url in c.cache
    ensures !Get(c, url, fetch).fetched
    ensures Get(InvalidateAll(c), url, fetch).fetched
    ensures Get(InvalidateAll(c), url, fetch).reply == fetch(url)
  {
  }

  /** A `delete` or `post` in between changes nothing a later `get` can see. */
  lemma PassThroughIsInvisible<M>(c: CachingClient, target: Url, url: Url, msg: M,
                                  delete: Getter, post: Poster<M>, fetch: Getter)
    ensures Get(Delete(c, target, delete).client, url, fetch) == Get(c, url, fetch)
    ensures Get(Post(c, target, msg, post).client, url, fetch) == Get(c, url, fetch)
  {
  }

  /** Equality cannot tell a client from itself after any `get` or `invalidate_all`. */
  lemma EqualityIgnoresCache(c: CachingClient, urls: seq<Url>, fetch: Getter)
    ensures SameCachingClient(c, Replay(c, urls, fetch).client)
    ensures SameCachingClient(c, InvalidateAll(c))
    ensures SameCachingClient(NewCachingClient(c.inner, c.capacity), c)
  {
  }
}

=== FILE: decimal.dfy ===
/**
 * Decimal text of integers as Rust's `Display` writes them (`format!("{}", id)`), and the
 * `str::parse::<i32>` that reads an id back out of a URL path segment.
 */
module Decimal {
  import opened Results
  import opened Ints

  predicate IsDigit(c: char) {
    '0' <= c <= '9'
  }

  predicate AllDigits(s: string) {
    forall i :: 0 <= i < |s| ==> IsDigit(s[i])
  }

  function DigitChar(d: nat): (c: char)
    requires d < 10
    ensures IsDigit(c)
  {
    (48 + d) as char
  }

  function DigitValue(c: char): (d: nat)
    requires IsDigit(c)
    ensures d < 10
    ensures DigitChar(d) == c
  {
    (c as int) - 48
  }

  /** Value of a run of decimal digits, most significant digit first. */
  function DigitsValue(s: string): nat
    requires AllDigits(s)
    decreases |s|
  {
    if |s| == 0 then 0 else DigitsValue(s[..|s| - 1]) * 10 + DigitValue(s[|s| - 1])
  }

  /** `Display` of a non-negative integer: one or more digits, no sign, no leading zero. */
  function NatToText(n: nat): (s: string)
    ensures |s| >= 1 && AllDigits(s)
    ensures |s| > 1 ==> s[0] != '0'
    decreases n
  {
    if n < 10 then [DigitChar(n)] else NatToText(n / 10) + [DigitChar(n % 10)]
  }

  /** `Display` of a signed integer: a leading `-` for negative values only. */
  function IntToText(i: int): (s: string)
    ensures |s| >= 1
    ensures s[0] == '-' <==> i < 0
    ensures '/' !in s && ',' !in s && '&' !in s && '=' !in s
  {
    if i < 0 then "-" + NatToText(-i) else NatToText(i)
  }

  /**
   * `str::parse::<i32>`: an optional `+` or `-`, then at least one decimal digit, and a value
   * that fits in 32 bits. The empty string, a lone sign, any other character and overflow fail.
   */
  function ParseI32(s: string): (r: Option<i32>)
    ensures |s| == 0 ==> r.None?
    ensures r.Some? ==> forall i :: 1 <= i < |s| ==> IsDigit(s[i])
    ensures r.Some? ==> IsDigit(s[0]) || ((s[0] == '+' || s[0] == '-') && |s| >= 2)
    ensures |s| >= 1 && AllDigits(s) ==>
              (r.Some? <==> DigitsValue(s) <= I32_MAX) && (r.Some? ==> r.value == DigitsValue(s))
    ensures |s| >= 2 && s[0] == '+' && AllDigits(s[1..]) ==>
              (r.Some? <==> DigitsValue(s[1..]) <= I32_MAX) && (r.Some? ==> r.value == DigitsValue(s[1..]))
    ensures |s| >= 2 && s[0] == '-' && AllDigits(s[1..]) ==>
              (r.Some? <==> DigitsValue(s[1..]) <= -I32_MIN) && (r.Some? ==> r.value as int == -(DigitsValue(s[1..]) as int))
  {
    if |s| == 0 then None
    else
      var signed := s[0] == '+' || s[0] == '-';
      var digits := if signed then s[1..] else s;
      if |digits| == 0 || !AllDigits(digits) then None
      else
        var v: int := if s[0] == '-' then -(DigitsValue(digits) as int) else DigitsValue(digits);
        if I32_MIN <= v <= I32_MAX then Some(v) else None
  }

  lemma {:induction false} DigitsValueOfNatToText(n: nat)
    ensures DigitsValue(NatToText(n)) == n
    decreases n
  {
    if n >= 10 {
      var s := NatToText(n);
      DigitsValueOfNatToText(n / 10);
      assert s[..|s| - 1] == NatToText(n / 10);
    }
  }

  /** Reading back the text of any 32-bit integer yields that integer. */
  lemma ParseI32OfIntToText(i: i32)
    ensures ParseI32(IntToText(i)) == Some(i)
  {
    if i < 0 {
      var s := IntToText(i);
      var m: nat := -(i as int);
      assert s[1..] == NatToText(m);
      DigitsValueOfNatToText(m);
    } else {
      DigitsValueOfNatToText(i);
    }
  }

  /** Distinct integers have distinct texts. */
  lemma IntToTextInjective(i: i32, j: i32)
    requires IntToText(i) == IntToText(j)
    ensures i == j
  {
    ParseI32OfIntToText(i);
    ParseI32OfIntToText(j);
  }

  /** A leading zero adds nothing to the value of a run of digits. */
  lemma {:induction false} LeadingZeroValue(x: string)
    requires AllDigits(x)
    ensures AllDigits("0" + x) && DigitsValue("0" + x) == DigitsValue(x)
    decreases |x|
  {
    var z := "0" + x;
    assert AllDigits(z) by {
      forall i | 0 <= i < |z| ensures IsDigit(z[i]) {
        if i > 0 { assert z[i] == x[i - 1]; }
      }
    }
    if |x| > 0 {
      var init := x[..|x| - 1];
      assert AllDigits(init) by {
        forall i | 0 <= i < |init| ensures IsDigit(init[i]) { assert init[i] == x[i]; }
      }
      LeadingZeroValue(init);
      assert z[..|z| - 1] == "0" + init;
      assert z[|z| - 1] == x[|x| - 1];
    }
  }

  /** A `+` before an in-range run of digits is read as no sign at all. */
  lemma ParsePlusDigits(t: string)
    requires |t| >= 1 && AllDigits(t) && DigitsValue(t) <= I32_MAX
    ensures ParseI32("+" + t) == Some(DigitsValue(t))
  {
    var s := "+" + t;
    assert s[0] == '+' && s[1..] == t;
  }

  /** An in-range run of digits with no sign is read as its value. */
  lemma ParseDigits(t: string)
    requires |t| >= 1 && AllDigits(t) && DigitsValue(t) <= I32_MAX
    ensures ParseI32(t) == Some(DigitsValue(t))
  {
    assert IsDigit(t[0]);
  }

  /** A `+`, a leading zero, or both, before an in-range run of digits leave its value unchanged. */
  lemma ParseSignAndZero(t: string)
    requires |t| >= 1 && AllDigits(t) && DigitsValue(t) <= I32_MAX
    ensures ParseI32("+" + t) == Some(DigitsValue(t))
    ensures ParseI32("0" + t) == Some(DigitsValue(t))
    ensures ParseI32("+0" + t) == Some(DigitsValue(t))
  {
    LeadingZeroValue(t);
    ParsePlusDigits(t);
    ParseDigits("0" + t);
    ParsePlusDigits("0" + t);
    assert "+0" + t == "+" + ("0" + t);
  }

  /**
   * Texts that are not canonical are read too: a `+` sign and a leading zero before the
   * digits of an in-range value leave the value unchanged.
   */
  lemma ParseI32AcceptsSignAndLeadingZero(n: nat)
    requires n <= I32_MAX
    ensures ParseI32("+" + NatToText(n)) == Some(n)
    ensures ParseI32("0" + NatToText(n)) == Some(n)
    ensures ParseI32("+0" + NatToText(n)) == Some(n)
  {
    DigitsValueOfNatToText(n);
    ParseSignAndZero(NatToText(n));
  }

  /** A run of digits whose value does not fit in 32 bits is rejected, with either sign. */
  lemma ParseI32RejectsOverflow(n: nat)
    requires n > I32_MAX
    ensures ParseI32(NatToText(n)) == None
    ensures ParseI32("+" + NatToText(n)) == None
    ensures n > -I32_MIN ==> ParseI32("-" + NatToText(n)) == None
  {
    DigitsValueOfNatToText(n);
    assert ("+" + NatToText(n))[1..] == NatToText(n);
    assert ("-" + NatToText(n))[1..] == NatToText(n);
  }
}

=== FILE: endpoints.dfy ===
/**
 * The read and delete surface of the `Api` trait, reduced to what each call computes before it
 * touches the network: the path it joins onto the entrypoint, the query it sets, and which
 * failure wins when several steps (a type conversion, time formatting, the URL join) can fail.
 *
 * Query strings are rendered as `key=value` pairs joined by `&`, exactly as the calls format
 * them; `set_query`'s percent-encoding belongs to the URL library and stays a parameter.
 */
module Endpoints {
  import opened Results
  import opened Ints
  import opened Http
  import opened Errors
  import opened Api
  import opened Text
  import opened Utils
  import Decimal
  import Pagination

  // ---------------------------------------------------------------- query strings

  datatype Param = Param(key: string, value: string)

  /** One `key=value` pair. */
  function Pair(p: Param): string
  {
    p.key + "=" + p.value
  }

  function Pairs(params: seq<Param>): (r: seq<string>)
    ensures |r| == |params|
    ensures forall i :: 0 <= i < |params| ==> r[i] == Pair(params[i])
  {
    if |params| == 0 then [] else [Pair(params[0])] + Pairs(params[1..])
  }

  /** The query text a call hands to `set_query`: its pairs in order, separated by `&`. */
  function RenderQuery(params: seq<Param>): string
  {
    Join(Pairs(params), '&')
  }

  /** A pair read back: the text before the first `=` is the key, the rest is the value. */
  function ParsePair(piece: string): Param
  {
    if '=' in piece then
      var i := IndexOf(piece, '=');
      Param(piece[..i], piece[i + 1..])
    else Param(piece, "")
  }

  /** How a server reads a query: split on `&`, each piece read as a pair. */
  function ParseQuery(q: string): (r: seq<Param>)
  {
    ParsePieces(Split(q, '&'))
  }

  function ParsePieces(pieces: seq<string>): (r: seq<Param>)
    ensures |r| == |pieces|
  {
    if |pieces| == 0 then [] else [ParsePair(pieces[0])] + ParsePieces(pieces[1..])
  }

  /** The value under the first occurrence of `key`, if any. */
  function Lookup(params: seq<Param>, key: string): (r: Option<string>)
    ensures r.None? <==> forall i :: 0 <= i < |params| ==> params[i].key != key
  {
    if |params| == 0 then None
    else if params[0].key == key then Some(params[0].value)
    else Lookup(params[1..], key)
  }

  /** The first pair under `key` decides the lookup. */
  lemma {:induction false} LookupFindsFirst(params: seq<Param>, i: nat, key: string)
    requires i < |params| && params[i].key == key
    requires forall j :: 0 <= j < i ==> params[j].key != key
    ensures Lookup(params, key) == Some(params[i].value)
    decreases i
  {
    if i > 0 {
      LookupFindsFirst(params[1..], i - 1, key);
    }
  }

  /** A query survives the round trip when no key holds `=` or `&` and no value holds `&`. */
  predicate Readable(params: seq<Param>)
  {
    forall i :: 0 <= i < |params| ==>
      '=' !in params[i].key && '&' !in params[i].key && '&' !in params[i].value
  }

  lemma ParsePairOfPair(p: Param)
    requires '=' !in p.key
    ensures ParsePair(Pair(p)) == p
  {
    var s := Pair(p);
    assert s[|p.key|] == '=';
    assert forall j :: 0 <= j < |p.key| ==> s[j] == p.key[j];
    var i := IndexOf(s, '=');
    assert i == |p.key|;
    assert s[..i] == p.key;
    assert s[i + 1..] == p.value;
  }

  /** A readable, non-empty query parses back to exactly the pairs it was rendered from. */
  lemma {:induction false} ParseQueryOfRenderQuery(params: seq<Param>)
    requires |params| >= 1
    requires Readable(params)
    ensures ParseQuery(RenderQuery(params)) == params
  {
    var pieces := Pairs(params);
    forall k | 0 <= k < |pieces| ensures '&' !in pieces[k] {
      assert pieces[k] == params[k].key + "=" + params[k].value;
    }
    SplitOfJoin(pieces, '&');
    ParsePiecesOfPairs(params);
  }

  lemma {:induction false} ParsePiecesOfPairs(params: seq<Param>)
    requires forall i :: 0 <= i < |params| ==> '=' !in params[i].key
    ensures ParsePieces(Pairs(params)) == params
    decreases |params|
  {
    if |params| > 0 {
      ParsePairOfPair(params[0]);
      ParsePiecesOfPairs(params[1..]);
      assert Pairs(params)[1..] == Pairs(params[1..]);
      assert params == [params[0]] + params[1..];
    }
  }

  // ---------------------------------------------------------------- calls

  /** A point in time; only the formatter looks inside. */
  datatype Time = Time(unixNanos: int)

  /** ISO 8601 formatting of a time, which can fail. */
  type Formatter = Time -> Result<string, TimeError>

  /** `Url::set_query(Some(q))`. */
  type QuerySetter = (Url, string) -> Url

  /** What building a request URL depends on. */
  datatype Surface = Surface(entrypoint: Url, join: Joiner, setQuery: QuerySetter, format: Formatter)

  /**
   * The read calls. A `status` or `typ` argument is the outcome of the caller's `try_into`
   * conversion: the converted value's text, or the error it converts into.
   */
  datatype ReadOp =
    | AccountByName(accountName: string)
    | FileByTaskIdAndName(taskId: i32, fileName: string)
    | AccountById(accountId: i32)
    | Accounts
    | SatelliteBands
    | SatelliteBandById(satelliteBandId: i32)
    | SatelliteBandByName(satelliteBandName: string)
    | SatelliteBandsByAccountName(accountName: string)
    | SatelliteConfigurationsByAccountName(accountName: string)
    | SatelliteConfigurations
    | SatelliteConfigurationById(satelliteConfigurationId: i32)
    | SatelliteConfigurationByName(satelliteConfigurationName: string)
    | Sites
    | SiteById(siteId: i32)
    | SiteByName(siteName: string)
    | SiteConfigurations
    | SiteConfigurationById(siteConfigurationId: i32)
    | SiteConfigurationByName(siteConfigurationName: string)
    | RequestById(taskRequestId: i32)
    | Requests
    | RequestsByTargetDateBetween(start: Time, end: Time)
    | RequestsByAccountAndTargetDateBetween(accountUri: string, start: Time, end: Time)
    | RequestsByAccountAndUpcomingToday
    | RequestsByConfiguration(configurationUri: string)
    | RequestsByConfigurationAndSatelliteNamesAndTargetDateBetween(
        configurationUri: string, satellites: seq<string>, start: Time, end: Time)
    | RequestsByConfigurationAndTargetDateBetween(configurationUri: string, start: Time, end: Time)
    | RequestsByIds(ids: seq<string>)
    | RequestsByOverlappingPublic(start: Time, end: Time)
    | RequestsBySatelliteName(satelliteName: string)
    | RequestsBySatelliteNameAndTargetDateBetween(satelliteName: string, start: Time, end: Time)
    | RequestsByStatus(status: Result<string, Error>)
    | RequestsByStatusAndAccountAndTargetDateBetween(statusText: string, accountUri: string, start: Time, end: Time)
    | RequestsByTypeAndTargetDateBetween(typ: Result<string, Error>, start: Time, end: Time)
    | RequestsPassedToday
    | RequestsUpcomingToday
    | Satellites
    | SatelliteById(satelliteId: i32)
    | SatelliteByName(satelliteName: string)
    | TaskById(taskId: i32)
    | TasksByAccountAndPassOverlapping(accountUri: string, start: Time, end: Time)
    | TasksByAccountAndSatelliteAndBandAndPassOverlapping(
        accountUri: string, satelliteConfigUri: string, band: string, start: Time, end: Time)
    | TasksByAccountAndSiteConfigurationAndBandAndPassOverlapping(
        accountUri: string, siteConfigUri: string, band: string, start: Time, end: Time)
    | TasksByPassWindow(start: Time, end: Time)
    | TasksByPassOverlapping(start: Time, end: Time)
    | TasksPassedToday
    | TasksUpcomingToday
    | Users

  /** How a call delivers its result. */
  datatype Delivery =
    | Single      // one decoded value (`get_json_map`)
    | Collection  // the `items` of an embedded wrapper
    | Stream      // a paginated stream (`get_paginated`)
    | File        // raw bytes

  function DeliveryOf(op: ReadOp): Delivery
  {
    match op
    case FileByTaskIdAndName(_, _) => File
    case Accounts | SatelliteBands | SatelliteBandsByAccountName(_) | SatelliteConfigurationsByAccountName(_)
      | SatelliteConfigurations | Sites | SiteConfigurations | Requests
      | RequestsByAccountAndTargetDateBetween(_, _, _) | RequestsByAccountAndUpcomingToday
      | RequestsByConfiguration(_) | RequestsByOverlappingPublic(_, _) | RequestsBySatelliteName(_)
      | RequestsByStatus(_) | RequestsByStatusAndAccountAndTargetDateBetween(_, _, _, _)
      | Satellites | TasksByPassOverlapping(_, _) | Users
      => Stream
    case RequestsByConfigurationAndSatelliteNamesAndTargetDateBetween(_, _, _, _)
      | RequestsByConfigurationAndTargetDateBetween(_, _, _) | RequestsByIds(_)
      | RequestsBySatelliteNameAndTargetDateBetween(_, _, _) | RequestsByTypeAndTargetDateBetween(_, _, _)
      | RequestsPassedToday | RequestsUpcomingToday | TasksByAccountAndPassOverlapping(_, _, _)
      | TasksByAccountAndSatelliteAndBandAndPassOverlapping(_, _, _, _, _)
      | TasksByAccountAndSiteConfigurationAndBandAndPassOverlapping(_, _, _, _, _)
      | TasksByPassWindow(_, _) | TasksPassedToday | TasksUpcomingToday
      => Collection
    case _ => Single
  }

  // ---------------------------------------------------------------- paths

  const ACCOUNTS := "accounts"
  const SATELLITE_BANDS := "satellite_bands"
  const SATELLITE_CONFIGURATIONS := "satellite_configurations"
  const SITES := "sites"
  const CONFIGURATIONS := "configurations"
  const REQUESTS := "requests"
  const SATELLITES := "satellites"
  const TASKS := "tasks"
  const OVERRIDES := "overrides"
  const USERS := "users"
  const DOWNLOADS := "downloads"

  /** The one path both account/band task queries use. */
  const TASKS_BY_ACCOUNT_CONFIGURATION_BAND_PASS := SearchPath(TASKS, "findByAccountAndSiteConfigurationAndBandAndPassOverlapping")

  /** A path resolved beneath the entrypoint: non-empty, with no leading `/`. */
  predicate Relative(p: string)
  {
    |p| > 0 && p[0] != '/'
  }

  /** `collection/search/finder`, a collection's named query. */
  function SearchPath(collection: string, finder: string): (p: string)
    ensures Relative(collection) ==> Relative(p)
    ensures |p| > |collection| && p[..|collection|] == collection
  {
    collection + "/search/" + finder
  }

  /** `collection/{id}`. */
  function IdPath(collection: string, id: i32): string
  {
    collection + "/" + Decimal.IntToText(id)
  }

  /**
   * The path each call joins onto the entrypoint. Every path is relative (non-empty, with no
   * leading `/`), so it is resolved beneath the entrypoint rather than at the host's root.
   */
  function PathOf(op: ReadOp): (p: string)
    ensures Relative(p)
  {
    match op
    case AccountByName(_) => SearchPath(ACCOUNTS, "findOneByName")
    case FileByTaskIdAndName(taskId, fileName) => DOWNLOADS + "/" + Decimal.IntToText(taskId) + "/" + fileName
    case AccountById(id) => IdPath(ACCOUNTS, id)
    case Accounts => ACCOUNTS
    case SatelliteBands => SATELLITE_BANDS
    case SatelliteBandById(id) => IdPath(SATELLITE_BANDS, id)
    case SatelliteBandByName(_) => SearchPath(SATELLITE_BANDS, "findOneByName")
    case SatelliteBandsByAccountName(_) => SearchPath(SATELLITE_BANDS, "findAllByAccountName")
    case SatelliteConfigurationsByAccountName(_) => SearchPath(SATELLITE_CONFIGURATIONS, "findAllByAccountName")
    case SatelliteConfigurations => SATELLITE_CONFIGURATIONS
    case SatelliteConfigurationById(id) => IdPath(SATELLITE_CONFIGURATIONS, id)
    case SatelliteConfigurationByName(_) => SearchPath(SATELLITE_CONFIGURATIONS, "findOneByName")
    case Sites => SITES
    case SiteById(id) => IdPath(SITES, id)
    case SiteByName(_) => SearchPath(SITES, "findOneByName")
    case SiteConfigurations => CONFIGURATIONS
    case SiteConfigurationById(id) => IdPath(CONFIGURATIONS, id)
    case SiteConfigurationByName(_) => SearchPath(CONFIGURATIONS, "findOneByName")
    case RequestById(id) => IdPath(REQUESTS, id)
    case Requests => SearchPath(REQUESTS, "findAll")
    case RequestsByTargetDateBetween(_, _) => SearchPath(REQUESTS, "findAllByTargetDateBetween")
    case RequestsByAccountAndTargetDateBetween(_, _, _) => SearchPath(REQUESTS, "findAllByAccountAndTargetDateBetween")
    case RequestsByAccountAndUpcomingToday => SearchPath(REQUESTS, "findByAccountUpcomingToday")
    case RequestsByConfiguration(_) => SearchPath(REQUESTS, "findAllByConfigurationOrderByCreatedAsc")
    case RequestsByConfigurationAndSatelliteNamesAndTargetDateBetween(_, _, _, _) =>
      SearchPath(REQUESTS, "findAllByConfigurationAndSatelliteNamesAndTargetDateBetween")
    case RequestsByConfigurationAndTargetDateBetween(_, _, _) =>
      SearchPath(REQUESTS, "findAllByConfigurationAndTargetDateBetween")
    case RequestsByIds(_) => SearchPath(REQUESTS, "findAllByIds")
    case RequestsByOverlappingPublic(_, _) => SearchPath(REQUESTS, "findAllByOverlappingPublic")
    case RequestsBySatelliteName(_) => SearchPath(REQUESTS, "findBySatelliteName")
    case RequestsBySatelliteNameAndTargetDateBetween(_, _, _) =>
      SearchPath(REQUESTS, "findAllBySatelliteNameAndTargetDateBetween")
    case RequestsByStatus(_) => SearchPath(REQUESTS, "findByStatus")
    case RequestsByStatusAndAccountAndTargetDateBetween(_, _, _, _) =>
      SearchPath(REQUESTS, "findAllByStatusAndAccountAndTargetDateBetween")
    case RequestsByTypeAndTargetDateBetween(_, _, _) => SearchPath(REQUESTS, "findAllByTypeAndTargetDateBetween")
    case RequestsPassedToday => SearchPath(REQUESTS, "findAllPassedToday")
    case RequestsUpcomingToday => SearchPath(REQUESTS, "findAllUpcomingToday")
    case Satellites => SATELLITES
    case SatelliteById(id) => IdPath(SATELLITES, id)
    case SatelliteByName(_) => SATELLITES + "/findOneByName"
    case TaskById(id) => IdPath(TASKS, id)
    case TasksByAccountAndPassOverlapping(_, _, _) => SearchPath(TASKS, "findByAccountAndPassOverlapping")
    case TasksByAccountAndSatelliteAndBandAndPassOverlapping(_, _, _, _, _) =>
      TASKS_BY_ACCOUNT_CONFIGURATION_BAND_PASS
    case TasksByAccountAndSiteConfigurationAndBandAndPassOverlapping(_, _, _, _, _) =>
      TASKS_BY_ACCOUNT_CONFIGURATION_BAND_PASS
    case TasksByPassWindow(_, _) => SearchPath(TASKS, "findByStartBetweenOrderByStartAsc")
    case TasksByPassOverlapping(_, _) => SearchPath(TASKS, "findByOverlapping")
    case TasksPassedToday => SearchPath(TASKS, "findAllPassedToday")
    case TasksUpcomingToday => SearchPath(TASKS, "findAllUpcomingToday")
    case Users => USERS
  }

  /** The two times a call formats, if it takes any. */
  function TimesOf(op: ReadOp): Option<(Time, Time)>
  {
    match op
    case RequestsByTargetDateBetween(s, e) => Some((s, e))
    case RequestsByAccountAndTargetDateBetween(_, s, e) => Some((s, e))
    case RequestsByConfigurationAndSatelliteNamesAndTargetDateBetween(_, _, s, e) => Some((s, e))
    case RequestsByConfigurationAndTargetDateBetween(_, s, e) => Some((s, e))
    case RequestsByOverlappingPublic(s, e) => Some((s, e))
    case RequestsBySatelliteNameAndTargetDateBetween(_, s, e) => Some((s, e))
    case RequestsByStatusAndAccountAndTargetDateBetween(_, _, s, e) => Some((s, e))
    case RequestsByTypeAndTargetDateBetween(_, s, e) => Some((s, e))
    case TasksByAccountAndPassOverlapping(_, s, e) => Some((s, e))
    case TasksByAccountAndSatelliteAndBandAndPassOverlapping(_, _, _, s, e) => Some((s, e))
    case TasksByAccountAndSiteConfigurationAndBandAndPassOverlapping(_, _, _, s, e) => Some((s, e))
    case TasksByPassWindow(s, e) => Some((s, e))
    case TasksByPassOverlapping(s, e) => Some((s, e))
    case _ => None
  }

  /** The error of a failed argument conversion, which every call checks before anything else. */
  function ConversionError(op: ReadOp): Option<Error>
  {
    match op
    case RequestsByStatus(Err(e)) => Some(e)
    case RequestsByTypeAndTargetDateBetween(Err(e), _, _) => Some(e)
    case _ => None
  }

  /** The two streams that format their times before resolving the path. */
  predicate FormatsFirst(op: ReadOp)
  {
    op.RequestsByAccountAndTargetDateBetween? || op.TasksByPassOverlapping?
  }

  /** The two streams that unwrap the formatted times instead of reporting a failure. */
  predicate Unwraps(op: ReadOp)
  {
    op.RequestsByOverlappingPublic? || op.RequestsByStatusAndAccountAndTargetDateBetween?
  }

  /**
   * What the source demands of a caller: once the path of an unwrapping call has joined, its
   * times do format (a failed join returns before the times are touched).
   */
  predicate FormatsCleanly(op: ReadOp, s: Surface)
  {
    Unwraps(op) && s.join(s.entrypoint, PathOf(op)).Ok? ==>
      s.format(TimesOf(op).value.0).Ok? && s.format(TimesOf(op).value.1).Ok?
  }

  function TimeParams(start: string, end: string): seq<Param>
  {
    [Param("start", start), Param("end", end)]
  }

  /**
   * The query each call sets, from its arguments and its formatted times; `None` for a call
   * that sets none. The status/account/time stream sends the account under `account` here,
   * the corrected key; the source sends it under `satelliteNames`, and
   * `StatusAccountLocateAsWritten` is the URL that call requests as written.
   */
  function ParamsOf(op: ReadOp, start: string, end: string): (r: Option<seq<Param>>)
    requires ConversionError(op).None?
    ensures r.Some? ==> |r.value| >= 1
  {
    match op
    case AccountByName(name) => Some([Param("name", name)])
    case SatelliteBandByName(name) => Some([Param("name", name)])
    case SatelliteBandsByAccountName(name) => Some([Param("accountName", name)])
    case SatelliteConfigurationsByAccountName(name) => Some([Param("accountName", name)])
    case SatelliteConfigurationByName(name) => Some([Param("name", name)])
    case SiteByName(name) => Some([Param("name", name)])
    case SiteConfigurationByName(name) => Some([Param("name", name)])
    case RequestsByTargetDateBetween(_, _) => Some(TimeParams(start, end))
    case RequestsByAccountAndTargetDateBetween(account, _, _) => Some([Param("account", account)] + TimeParams(start, end))
    case RequestsByConfiguration(configuration) => Some([Param("configuration", configuration)])
    case RequestsByConfigurationAndSatelliteNamesAndTargetDateBetween(configuration, satellites, _, _) =>
      Some([Param("configuration", configuration), Param("satelliteNames", ListToString(satellites))] + TimeParams(start, end))
    case RequestsByConfigurationAndTargetDateBetween(configuration, _, _) =>
      Some([Param("configuration", configuration)] + TimeParams(start, end))
    case RequestsByIds(ids) => Some([Param("ids", ListToString(ids))])
    case RequestsByOverlappingPublic(_, _) => Some(TimeParams(start, end))
    case RequestsBySatelliteName(name) => Some([Param("name", name)])
    case RequestsBySatelliteNameAndTargetDateBetween(name, _, _) => Some([Param("name", name)] + TimeParams(start, end))
    case RequestsByStatus(status) => Some([Param("status", status.value)])
    case RequestsByStatusAndAccountAndTargetDateBetween(status, account, _, _) =>
      Some(StatusAccountQuery(status, account, start, end))
    case RequestsByTypeAndTargetDateBetween(typ, _, _) => Some([Param("type", typ.value)] + TimeParams(start, end))
    case SatelliteByName(name) => Some([Param("name", name)])
    case TasksByAccountAndPassOverlapping(account, _, _) => Some([Param("account", account)] + TimeParams(start, end))
    case TasksByAccountAndSatelliteAndBandAndPassOverlapping(account, satellite, band, _, _) =>
      Some([Param("account", account), Param("satellite", satellite), Param("band", band)] + TimeParams(start, end))
    case TasksByAccountAndSiteConfigurationAndBandAndPassOverlapping(account, siteConfig, band, _, _) =>
      Some([Param("account", account), Param("siteConfig", siteConfig), Param("band", band)] + TimeParams(start, end))
    case TasksByPassWindow(_, _) => Some(TimeParams(start, end))
    case TasksByPassOverlapping(_, _) => Some(TimeParams(start, end))
    case _ => None
  }

  /**
   * The status/account/time query as the source writes it: four pairs, the account second
   * under `satelliteNames`, the times last, and no pair under `account`.
   */
  function StatusAccountQueryAsWritten(status: string, account: string, start: string, end: string): (r: seq<Param>)
    ensures |r| == 4 && r[0] == Param("status", status)
    ensures r[1].key == "satelliteNames" && r[1].value == account
    ensures r[2..] == TimeParams(start, end)
  {
    [Param("status", status), Param("satelliteNames", account)] + TimeParams(start, end)
  }

  /** The same query with the account under `account`, as the endpoint's name asks; only the second pair differs. */
  function StatusAccountQuery(status: string, account: string, start: string, end: string): (r: seq<Param>)
    ensures r == StatusAccountQueryAsWritten(status, account, start, end)[1 := Param("account", account)]
  {
    [Param("status", status), Param("account", account)] + TimeParams(start, end)
  }

  /**
   * Setting the query, when the call has one: a call without a query keeps the joined URL; a
   * call with one sets a text that, for readable pairs, parses back to exactly those pairs.
   */
  function WithQuery(s: Surface, url: Url, params: Option<seq<Param>>): (r: Url)
    ensures params.None? ==> r == url
    ensures params.Some? ==> r == s.setQuery(url, RenderQuery(params.value))
    ensures params.Some? && |params.value| >= 1 && Readable(params.value) ==>
              ParseQuery(RenderQuery(params.value)) == params.value
  {
    if params.None? then url
    else if |params.value| >= 1 && Readable(params.value) then
      ParseQueryOfRenderQuery(params.value);
      s.setQuery(url, RenderQuery(params.value))
    else
      s.setQuery(url, RenderQuery(params.value))
  }

  /** Formats both times, the start first; the first failure is the result. */
  function FormatBoth(format: Formatter, times: (Time, Time)): (r: Result<(string, string), Error>)
    ensures r.Ok? <==> format(times.0).Ok? && format(times.1).Ok?
    ensures r.Ok? ==> r.value == (format(times.0).value, format(times.1).value)
    ensures format(times.0).Err? ==> r == Err(TimeFormatError(format(times.0).error.text))
    ensures format(times.0).Ok? && format(times.1).Err? ==> r == Err(TimeFormatError(format(times.1).error.text))
  {
    match format(times.0)
    case Err(t) => Err(FromTime(t))
    case Ok(a) =>
      match format(times.1)
      case Err(t) => Err(FromTime(t))
      case Ok(b) => Ok((a, b))
  }

  /**
   * The joined URL and the formatted times (`("", "")` for a call without times) of a call
   * with these parts, or the first failure: a failed conversion first; then, when the call
   * formats first, the times before the path; otherwise the path before the times.
   */
  function Prepare(s: Surface, conversion: Option<Error>, times: Option<(Time, Time)>, formatsFirst: bool, path: string)
    : (r: Result<(Url, string, string), Error>)
    ensures r.Ok? <==>
              && conversion.None?
              && s.join(s.entrypoint, path).Ok?
              && (times.Some? ==> s.format(times.value.0).Ok? && s.format(times.value.1).Ok?)
    ensures r.Ok? ==> r.value.0 == s.join(s.entrypoint, path).value
    ensures r.Ok? && times.None? ==> r.value.1 == "" && r.value.2 == ""
    ensures r.Ok? && times.Some? ==> r.value.1 == s.format(times.value.0).value && r.value.2 == s.format(times.value.1).value
    ensures conversion.Some? ==> r == Err(conversion.value)
    ensures conversion.None? && times.Some? && formatsFirst && s.format(times.value.0).Err? ==>
              r == Err(TimeFormatError(s.format(times.value.0).error.text))
    ensures conversion.None? && (times.None? || !formatsFirst) && s.join(s.entrypoint, path).Err? ==>
              r == Err(InvalidUri(s.join(s.entrypoint, path).error.text))
    ensures conversion.None? && times.Some? && (formatsFirst || s.join(s.entrypoint, path).Ok?) &&
            FormatBoth(s.format, times.value).Err? ==>
              r == Err(FormatBoth(s.format, times.value).error)
    ensures conversion.None? && times.Some? && formatsFirst && FormatBoth(s.format, times.value).Ok? &&
            s.join(s.entrypoint, path).Err? ==>
              r == Err(InvalidUri(s.join(s.entrypoint, path).error.text))
  {
    if conversion.Some? then Err(conversion.value)
    else if times.None? then
      match PathToUrl(s.entrypoint, s.join, path)
      case Err(e) => Err(e)
      case Ok(url) => Ok((url, "", ""))
    else if formatsFirst then
      match FormatBoth(s.format, times.value)
      case Err(e) => Err(e)
      case Ok((a, b)) =>
        match PathToUrl(s.entrypoint, s.join, path)
        case Err(e) => Err(e)
        case Ok(url) => Ok((url, a, b))
    else
      match PathToUrl(s.entrypoint, s.join, path)
      case Err(e) => Err(e)
      case Ok(url) =>
        match FormatBoth(s.format, times.value)
        case Err(e) => Err(e)
        case Ok((a, b)) => Ok((url, a, b))
  }

  /**
   * The URL a read call requests, or the error it fails with before any request: it exists
   * exactly when the conversion, the join and every formatting succeed, and then it is the
   * joined path with the call's query set.
   */
  function Locate(op: ReadOp, s: Surface): (r: Result<Url, Error>)
    requires FormatsCleanly(op, s)
    ensures r.Ok? <==>
              && ConversionError(op).None?
              && s.join(s.entrypoint, PathOf(op)).Ok?
              && (TimesOf(op).Some? ==> s.format(TimesOf(op).value.0).Ok? && s.format(TimesOf(op).value.1).Ok?)
    ensures r.Ok? ==>
              var texts := TextsOf(op, s.format);
              r.value == WithQuery(s, s.join(s.entrypoint, PathOf(op)).value, ParamsOf(op, texts.0, texts.1))
  {
    match Prepare(s, ConversionError(op), TimesOf(op), FormatsFirst(op), PathOf(op))
    case Err(e) => Err(e)
    case Ok((url, a, b)) => Ok(WithQuery(s, url, ParamsOf(op, a, b)))
  }

  /** The formatted times of a call, `("", "")` for one without times. */
  function TextsOf(op: ReadOp, format: Formatter): (string, string)
    requires TimesOf(op).Some? ==> format(TimesOf(op).value.0).Ok? && format(TimesOf(op).value.1).Ok?
  {
    if TimesOf(op).None? then ("", "")
    else (format(TimesOf(op).value.0).value, format(TimesOf(op).value.1).value)
  }

  /** A failed conversion wins over every other failure. */
  lemma ConversionFailsFirst(op: ReadOp, s: Surface)
    requires FormatsCleanly(op, s)
    requires ConversionError(op).Some?
    ensures Locate(op, s) == Err(ConversionError(op).value)
  {
  }

  /**
   * In the two format-first streams a time that does not format wins over a bad path: the
   * start's failure if the start fails, otherwise the end's.
   */
  lemma FormatFailsBeforeJoin(op: ReadOp, s: Surface)
    requires FormatsFirst(op)
    requires FormatBoth(s.format, TimesOf(op).value).Err?
    ensures Locate(op, s) == Err(FormatBoth(s.format, TimesOf(op).value).error)
    ensures s.format(TimesOf(op).value.0).Err? ==>
              Locate(op, s) == Err(TimeFormatError(s.format(TimesOf(op).value.0).error.text))
    ensures s.format(TimesOf(op).value.0).Ok? ==>
              Locate(op, s) == Err(TimeFormatError(s.format(TimesOf(op).value.1).error.text))
  {
    assert ConversionError(op).None? && TimesOf(op).Some? by {
      if op.RequestsByAccountAndTargetDateBetween? {
      } else {
      }
    }
  }

  /** Everywhere else a path that does not join wins over a time that does not format. */
  lemma JoinFailsBeforeFormat(op: ReadOp, s: Surface)
    requires FormatsCleanly(op, s)
    requires ConversionError(op).None? && !FormatsFirst(op)
    requires s.join(s.entrypoint, PathOf(op)).Err?
    ensures Locate(op, s) == Err(InvalidUri(s.join(s.entrypoint, PathOf(op)).error.text))
  {
  }

  /**
   * A stream call whose URL cannot be built yields exactly that one error; otherwise it is the
   * paginated walk from the URL.
   */
  function StreamOf<T>(op: ReadOp, s: Surface, env: Pagination.Env<T>, fuel: nat): (r: seq<Result<T, Error>>)
    requires DeliveryOf(op) == Stream
    requires FormatsCleanly(op, s)
    ensures Locate(op, s).Err? ==> |r| == 1 && r[0] == Err(Locate(op, s).error)
    ensures Locate(op, s).Ok? ==> r == Pagination.GetPaginated(env, Locate(op, s).value, fuel)
  {
    Pagination.StreamFrom(env, Locate(op, s), fuel)
  }

  /**
   * The URL the status/account/time stream requests as the source writes it: it fails exactly
   * as `Locate` does, and when it succeeds it differs from `Locate` only in the query, which
   * carries the account under `satelliteNames` instead of `account`.
   */
  function StatusAccountLocateAsWritten(status: string, account: string, start: Time, end: Time, s: Surface)
    : (r: Result<Url, Error>)
    requires FormatsCleanly(RequestsByStatusAndAccountAndTargetDateBetween(status, account, start, end), s)
    ensures var op := RequestsByStatusAndAccountAndTargetDateBetween(status, account, start, end);
            && (r.Ok? <==> Locate(op, s).Ok?)
            && (r.Err? ==> r == Locate(op, s))
    ensures r.Ok? ==>
              var url := s.join(s.entrypoint, PathOf(RequestsByStatusAndAccountAndTargetDateBetween(status, account, start, end))).value;
              var a := s.format(start).value;
              var b := s.format(end).value;
              && r.value == s.setQuery(url, RenderQuery(StatusAccountQueryAsWritten(status, account, a, b)))
              && Locate(RequestsByStatusAndAccountAndTargetDateBetween(status, account, start, end), s).value
                 == s.setQuery(url, RenderQuery(StatusAccountQuery(status, account, a, b)))
  {
    var op := RequestsByStatusAndAccountAndTargetDateBetween(status, account, start, end);
    match Prepare(s, None, Some((start, end)), false, PathOf(op))
    case Err(e) => Err(e)
    case Ok((url, a, b)) => Ok(s.setQuery(url, RenderQuery(StatusAccountQueryAsWritten(status, account, a, b))))
  }

  // ---------------------------------------------------------------- properties of the surface

  /** The numeric id of a by-id call, and the collection it reads from. */
  function IdRoute(op: ReadOp): Option<(string, i32)>
  {
    match op
    case AccountById(id) => Some((ACCOUNTS, id))
    case SatelliteBandById(id) => Some((SATELLITE_BANDS, id))
    case SatelliteConfigurationById(id) => Some((SATELLITE_CONFIGURATIONS, id))
    case SiteById(id) => Some((SITES, id))
    case SiteConfigurationById(id) => Some((CONFIGURATIONS, id))
    case RequestById(id) => Some((REQUESTS, id))
    case SatelliteById(id) => Some((SATELLITES, id))
    case TaskById(id) => Some((TASKS, id))
    case _ => None
  }

  /** A by-id call reads `collection/{id}` of its route. */
  lemma PathOfIdRoute(op: ReadOp)
    requires IdRoute(op).Some?
    ensures PathOf(op) == IdPath(IdRoute(op).value.0, IdRoute(op).value.1)
  {
  }

  /**
   * Every by-id call names its id as the last path segment, and that segment reads back as
   * the same `i32`.
   */
  lemma IdCallsEndInTheirId(op: ReadOp)
    requires IdRoute(op).Some?
    ensures PathOf(op) == IdRoute(op).value.0 + "/" + Decimal.IntToText(IdRoute(op).value.1)
    ensures Decimal.ParseI32(Last(Split(PathOf(op), '/'))) == Some(IdRoute(op).value.1)
  {
    var (collection, id) := IdRoute(op).value;
    var text := Decimal.IntToText(id);
    PathOfIdRoute(op);
    assert PathOf(op) == collection + ['/'] + text;
    LastPieceAfterSeparator(collection, text, '/');
    Decimal.ParseI32OfIntToText(id);
  }

  /** Every call that takes a time window sends it last, as `start` then `end`. */
  lemma TimedCallsEndWithTimes(op: ReadOp, start: string, end: string)
    requires ConversionError(op).None?
    requires TimesOf(op).Some?
    ensures ParamsOf(op, start, end).Some?
    ensures var q := ParamsOf(op, start, end).value;
            |q| >= 2 && q[|q| - 2..] == TimeParams(start, end)
  {
  }

  /** Every call whose arguments hold no `&` sets a query that reads back whole. */
  lemma QueryReadsBack(op: ReadOp, start: string, end: string)
    requires ConversionError(op).None?
    requires ParamsOf(op, start, end).Some?
    requires Readable(ParamsOf(op, start, end).value)
    ensures ParseQuery(RenderQuery(ParamsOf(op, start, end).value)) == ParamsOf(op, start, end).value
  {
    ParseQueryOfRenderQuery(ParamsOf(op, start, end).value);
  }

  /**
   * As the source writes it, the status/account/time query carries the account URI under
   * `satelliteNames`, so a server looking for `account` finds nothing.
   */
  lemma AccountSentAsSatelliteNames(status: string, account: string, start: string, end: string)
    requires Readable(StatusAccountQueryAsWritten(status, account, start, end))
    ensures Lookup(ParseQuery(RenderQuery(StatusAccountQueryAsWritten(status, account, start, end))), "account").None?
    ensures Lookup(ParseQuery(RenderQuery(StatusAccountQueryAsWritten(status, account, start, end))), "satelliteNames")
            == Some(account)
  {
    ParseQueryOfRenderQuery(StatusAccountQueryAsWritten(status, account, start, end));
  }

  /** With the corrected key the server reads status, account and both times back under their own names. */
  lemma StatusAccountQueryReadsBack(status: string, account: string, start: string, end: string)
    requires Readable(StatusAccountQuery(status, account, start, end))
    ensures var q := ParseQuery(RenderQuery(StatusAccountQuery(status, account, start, end)));
            && Lookup(q, "status") == Some(status)
            && Lookup(q, "account") == Some(account)
            && Lookup(q, "start") == Some(start)
            && Lookup(q, "end") == Some(end)
  {
    var params := StatusAccountQuery(status, account, start, end);
    ParseQueryOfRenderQuery(params);
    assert params[0].key == "status" && params[1].key == "account";
    assert params[2].key == "start" && params[3].key == "end";
    LookupFindsFirst(params, 0, "status");
    LookupFindsFirst(params, 1, "account");
    LookupFindsFirst(params, 2, "start");
    LookupFindsFirst(params, 3, "end");
  }

  /**
   * The satellite-configuration task query and the site-configuration one go to the same
   * endpoint; only the name of their second key differs.
   */
  lemma TaskQueriesSharePath(account: string, config: string, band: string, start: Time, end: Time, a: string, b: string)
    ensures PathOf(TasksByAccountAndSatelliteAndBandAndPassOverlapping(account, config, band, start, end))
            == PathOf(TasksByAccountAndSiteConfigurationAndBandAndPassOverlapping(account, config, band, start, end))
    ensures ParamsOf(TasksByAccountAndSatelliteAndBandAndPassOverlapping(account, config, band, start, end), a, b).value[1]
            == Param("satellite", config)
    ensures ParamsOf(TasksByAccountAndSiteConfigurationAndBandAndPassOverlapping(account, config, band, start, end), a, b).value[1]
            == Param("siteConfig", config)
  {
    assert PathOf(TasksByAccountAndSatelliteAndBandAndPassOverlapping(account, config, band, start, end))
           == TASKS_BY_ACCOUNT_CONFIGURATION_BAND_PASS;
    assert PathOf(TasksByAccountAndSiteConfigurationAndBandAndPassOverlapping(account, config, band, start, end))
           == TASKS_BY_ACCOUNT_CONFIGURATION_BAND_PASS;
  }

  // ---------------------------------------------------------------- deletes

  datatype DeleteOp =
    | DeleteBandDetails(id: i32)
    | DeleteSatelliteConfiguration(id: i32)
    | DeleteSatellite(id: i32)
    | DeleteOverride(id: i32)
    | DeleteUser(id: i32)
    | DeleteTaskRequest(id: i32)

  /** The collection a delete call targets: a single non-empty path segment. */
  function DeleteCollection(op: DeleteOp): (c: string)
    ensures |c| > 0 && '/' !in c
  {
    match op
    case DeleteBandDetails(_) => SATELLITE_BANDS
    case DeleteSatelliteConfiguration(_) => SATELLITE_CONFIGURATIONS
    case DeleteSatellite(_) => SATELLITES
    case DeleteOverride(_) => OVERRIDES
    case DeleteUser(_) => USERS
    case DeleteTaskRequest(_) => REQUESTS
  }

  /** The path a delete call joins: two segments, the object's collection and its id. */
  function DeletePath(op: DeleteOp): (p: string)
    ensures Split(p, '/') == [DeleteCollection(op), Decimal.IntToText(op.id)]
  {
    var text := Decimal.IntToText(op.id);
    assert IdPath(DeleteCollection(op), op.id) == DeleteCollection(op) + ['/'] + text;
    SplitAtFirstSeparator(DeleteCollection(op), text, '/');
    assert Split(text, '/') == [text];
    IdPath(DeleteCollection(op), op.id)
  }

  /** The last segment of a delete path reads back as the id of the object deleted. */
  lemma DeletePathEndsInId(op: DeleteOp)
    ensures Decimal.ParseI32(Last(Split(DeletePath(op), '/'))) == Some(op.id)
  {
    var text := Decimal.IntToText(op.id);
    assert DeletePath(op) == DeleteCollection(op) + ['/'] + text;
    LastPieceAfterSeparator(DeleteCollection(op), text, '/');
    Decimal.ParseI32OfIntToText(op.id);
  }

  /**
   * A delete targets the same path as the by-id read of the same collection and id: bands,
   * satellite configurations, satellites and task requests are deleted where they are read.
   */
  lemma DeleteMatchesRead(op: DeleteOp, read: ReadOp)
    requires IdRoute(read) == Some((DeleteCollection(op), op.id))
    ensures DeletePath(op) == PathOf(read)
  {
    PathOfIdRoute(read);
  }
}

=== FILE: errors.dfy ===
/**
 * The client's single error type and the rules that turn the errors of its collaborators
 * (transport, JSON decoder, time formatter, URL parser) into it.
 */
module Errors {
  import opened Results
  import opened Ints
  import opened Http

  datatype Error =
    | Response(msg: string)
    | ResponseStatus(status: StatusCode, error: string)
    | Deserialization(msg: string)
    | PaginationItemDeserialization(msg: string)
    | TimeFormatError(msg: string)
    | InvalidUri(msg: string)
    | MissingUri(reference: string)
    | InvalidId

  /** A transport failure: its message and, when the failure came with one, a status. */
  datatype TransportError = TransportError(text: string, status: Option<StatusCode>)

  /** A JSON decoding failure: its message. */
  datatype JsonError = JsonError(text: string)

  /** The two failures of the time library: a general one and a formatting one. */
  datatype TimeError =
    | TimeGeneral(text: string)
    | TimeFormat(text: string)

  /** A URL parse (or join) failure: its message. */
  datatype UrlParseError = UrlParseError(text: string)

  /** The text an error carries, if any. */
  function Detail(e: Error): Option<string>
  {
    match e
    case Response(m) => Some(m)
    case ResponseStatus(_, m) => Some(m)
    case Deserialization(m) => Some(m)
    case PaginationItemDeserialization(m) => Some(m)
    case TimeFormatError(m) => Some(m)
    case InvalidUri(m) => Some(m)
    case MissingUri(r) => Some(r)
    case InvalidId => None
  }

  /** The status an error carries, if any. */
  function StatusOf(e: Error): Option<StatusCode>
  {
    if e.ResponseStatus? then Some(e.status) else None
  }

  /** A transport failure keeps its message and its status, if it had one. */
  function FromTransport(t: TransportError): (r: Error)
    ensures Detail(r) == Some(t.text)
    ensures StatusOf(r) == t.status
    ensures r.ResponseStatus? || r.Response?
  {
    match t.status
    case Some(status) => ResponseStatus(status, t.text)
    case None => Response(t.text)
  }

  function FromJson(j: JsonError): (r: Error)
    ensures r.Deserialization?
    ensures Detail(r) == Some(j.text)
  {
    Deserialization(j.text)
  }

  /** Both kinds of time failure become the same variant. */
  function FromTime(t: TimeError): (r: Error)
    ensures r.TimeFormatError?
    ensures Detail(r) == Some(t.text)
  {
    TimeFormatError(t.text)
  }

  function FromUrlParse(p: UrlParseError): (r: Error)
    ensures r.InvalidUri?
    ensures Detail(r) == Some(p.text)
  {
    InvalidUri(p.text)
  }

  /** `Error::pag_item`: the error for a continuation link that could not be resolved. */
  function PagItem(s: string): (r: Error)
    ensures r.PaginationItemDeserialization?
    ensures Detail(r) == Some(s)
  {
    PaginationItemDeserialization(s)
  }

  /** A status serialises as its numeric code, which reads back as the same status. */
  function SerializeStatus(s: StatusCode): (r: u16)
    ensures StatusFromU16(r) == Some(s)
  {
    s.code
  }

  /** The two time failures are indistinguishable once converted, except by their text. */
  lemma TimeKindsMerge(text: string)
    ensures FromTime(TimeGeneral(text)) == FromTime(TimeFormat(text))
  {
  }
}

=== FILE: extensions.dfy ===
/**
 * The HATEOAS helpers behind the model extension traits: reading an object's id out of one of
 * its links, and following a named link to fetch the object (or collection) it points at.
 */
module Extensions {
  import opened Results
  import opened Ints
  import opened Http
  import opened Errors
  import opened Text
  import opened Api
  import Decimal
  import Endpoints

  /** The `_links` map a model object carries: relation name to URL. */
  type Links = map<string, Url>

  /** The text of the error for a link whose URL cannot be a base. */
  const MISSING_PATH: string := "Missing Path"

  /**
   * `get_id`: the id is the last path segment of the named link, parsed as an `i32`. A missing
   * link, a URL without path segments and a last segment that is not an `i32` each fail with
   * their own error, in that order.
   */
  function GetId(reference: string, links: Links): (r: Result<i32, Error>)
    ensures r == Err(MissingUri(reference)) <==> reference !in links
    ensures r == Err(InvalidUri(MISSING_PATH)) <==>
              reference in links && PathSegments(links[reference]).None?
    ensures r == Err(InvalidId) <==>
              reference in links && PathSegments(links[reference]).Some? &&
              Decimal.ParseI32(Last(PathSegments(links[reference]).value)).None?
    ensures r.Ok? ==>
              reference in links && PathSegments(links[reference]).Some? &&
              Decimal.ParseI32(Last(PathSegments(links[reference]).value)) == Some(r.value)
  {
    if reference !in links then Err(MissingUri(reference))
    else
      match PathSegments(links[reference])
      case None => Err(InvalidUri(MISSING_PATH))
      case Some(segments) =>
        match Decimal.ParseI32(Last(segments))
        case None => Err(InvalidId)
        case Some(id) => Ok(id)
  }

  /** A link to `<prefix>/<id>` yields that id, whatever the prefix. */
  lemma GetIdOfIdUrl(reference: string, links: Links, prefix: string, id: i32)
    requires reference in links
    requires links[reference].path == "/" + prefix + "/" + Decimal.IntToText(id)
    ensures GetId(reference, links) == Ok(id)
  {
    LastPathSegment(links[reference], prefix, Decimal.IntToText(id));
    Decimal.ParseI32OfIntToText(id);
  }

  /**
   * An object's link to itself, under the entrypoint's path, is the path its read and delete
   * calls use: the id read back from it is the id those calls were given.
   */
  lemma GetIdOfCallPath(reference: string, links: Links, base: string, collection: string, id: i32)
    requires reference in links
    requires links[reference].path == "/" + base + "/" + Endpoints.IdPath(collection, id)
    ensures GetId(reference, links) == Ok(id)
  {
    var text := Decimal.IntToText(id);
    assert links[reference].path == "/" + (base + "/" + collection) + "/" + text;
    GetIdOfIdUrl(reference, links, base + "/" + collection, id);
  }

  /** A link ending in `/` has an empty last segment, which is not an id. */
  lemma TrailingSlashIsInvalidId(reference: string, links: Links, prefix: string)
    requires reference in links
    requires links[reference].path == "/" + prefix + "/"
    ensures GetId(reference, links) == Err(InvalidId)
  {
    var u := links[reference];
    assert u.path[1..] == prefix + ['/'] + "";
    LastPieceAfterSeparator(prefix, "", '/');
    assert Split("", '/') == [""];
  }

  /** A last segment past the `i32` range is not an id either. */
  lemma OverflowIsInvalidId(reference: string, links: Links, prefix: string, n: nat)
    requires reference in links
    requires links[reference].path == "/" + prefix + "/" + Decimal.NatToText(n)
    requires n > I32_MAX
    ensures GetId(reference, links) == Err(InvalidId)
  {
    var text := Decimal.NatToText(n);
    assert '/' !in text by {
      assert Decimal.AllDigits(text);
      forall k | 0 <= k < |text| ensures text[k] != '/' {
        assert Decimal.IsDigit(text[k]);
      }
    }
    LastPathSegment(links[reference], prefix, text);
    Decimal.ParseI32RejectsOverflow(n);
  }

  /**
   * The `get_id` of `Site`, `SiteConfiguration`, `Band` and `Satellite`: the id read from the
   * object's `self` link.
   */
  function SelfId(links: Links): (r: Result<i32, Error>)
    ensures r == Err(MissingUri("self")) <==> "self" !in links
    ensures r == Err(InvalidUri(MISSING_PATH)) <==> "self" in links && PathSegments(links["self"]).None?
    ensures r == Err(InvalidId) <==>
              "self" in links && PathSegments(links["self"]).Some? &&
              Decimal.ParseI32(Last(PathSegments(links["self"]).value)).None?
    ensures r.Ok? <==> "self" in links && PathSegments(links["self"]).Some? &&
                       Decimal.ParseI32(Last(PathSegments(links["self"]).value)).Some?
    ensures r.Ok? ==> Decimal.ParseI32(Last(PathSegments(links["self"]).value)) == Some(r.value)
  {
    GetId("self", links)
  }

  /** `get_item`: a fetch of the named link; a missing link fails before any request. */
  function GetItem<T>(reference: string, links: Links, get: Getter, lossy: Lossy, decode: Decoder<T>): (r: Result<T, Error>)
    ensures reference !in links ==> r == Err(MissingUri(reference))
    ensures r.Ok? ==> reference in links && get(links[reference]).Ok? && IsSuccess(get(links[reference]).value.status)
    ensures reference in links && get(links[reference]).Err? ==> r == Err(get(links[reference]).error)
    ensures reference in links && get(links[reference]).Ok? && !IsSuccess(get(links[reference]).value.status) ==>
              var reply := get(links[reference]).value;
              r == Err(ResponseStatus(reply.status, lossy(reply.body)))
    ensures r.Ok? ==> decode(lossy(get(links[reference]).value.body)) == Ok(r.value)
    ensures reference in links && get(links[reference]).Ok? && IsSuccess(get(links[reference]).value.status) ==>
              var text := lossy(get(links[reference]).value.body);
              && (decode(text).Ok? ==> r == Ok(decode(text).value))
              && (decode(text).Err? ==> r == Err(Deserialization(decode(text).error.text)))
  {
    if reference !in links then Err(MissingUri(reference))
    else GetJsonMap(get, lossy, decode, links[reference])
  }

  /** Only the URL of the named link is ever requested: two transports that agree there agree on the result. */
  lemma GetItemReadsOnlyItsLink<T>(reference: string, links: Links, get1: Getter, get2: Getter, lossy: Lossy, decode: Decoder<T>)
    requires reference in links ==> get1(links[reference]) == get2(links[reference])
    ensures GetItem(reference, links, get1, lossy, decode) == GetItem(reference, links, get2, lossy, decode)
  {
  }

  /** With the link missing, the transport plays no part at all. */
  lemma MissingLinkIsNotFetched<T>(reference: string, links: Links, get1: Getter, get2: Getter, lossy: Lossy, decode: Decoder<T>)
    requires reference !in links
    ensures GetItem(reference, links, get1, lossy, decode) == GetItem(reference, links, get2, lossy, decode)
  {
  }

  /** `get_embedded`: `get_item` of the `_embedded` wrapper, unwrapped to its `items`. */
  function GetEmbedded<T>(reference: string, links: Links, get: Getter, lossy: Lossy, decode: Decoder<Embedded<T>>): (r: Result<T, Error>)
    ensures r.Ok? <==> GetItem(reference, links, get, lossy, decode).Ok?
    ensures r.Ok? ==> r.value == GetItem(reference, links, get, lossy, decode).value.items
    ensures r.Err? ==> r.error == GetItem(reference, links, get, lossy, decode).error
  {
    match GetItem(reference, links, get, lossy, decode)
    case Err(e) => Err(e)
    case Ok(wrapped) => Ok(wrapped.items)
  }

  /** With the link present, `get_embedded` is the collection fetch of that link. */
  lemma GetEmbeddedIsCollectionFetch<T>(reference: string, links: Links, get: Getter, lossy: Lossy, decode: Decoder<Embedded<T>>)
    requires reference in links
    ensures GetEmbedded(reference, links, get, lossy, decode) == GetItems(get, lossy, decode, links[reference])
  {
  }

  /** `get_content`: `get_item` of the `content` wrapper, unwrapped to its `inner` value. */
  function GetContent<T>(reference: string, links: Links, get: Getter, lossy: Lossy, decode: Decoder<Content<T>>): (r: Result<T, Error>)
    ensures r.Ok? <==> GetItem(reference, links, get, lossy, decode).Ok?
    ensures r.Ok? ==> r.value == GetItem(reference, links, get, lossy, decode).value.inner
    ensures r.Err? ==> r.error == GetItem(reference, links, get, lossy, decode).error
  {
    match GetItem(reference, links, get, lossy, decode)
    case Err(e) => Err(e)
    case Ok(wrapped) => Ok(wrapped.inner)
  }
}

=== FILE: http.dfy ===
/**
 * The HTTP vocabulary the client reads: bodies, status codes, parsed URLs and the
 * `(body, status)` pair a transport `get` returns. Parsing and joining URLs stay with the
 * URL library; a `Url` here is already parsed and exposes only what the client inspects.
 */
module Http {
  import opened Results
  import opened Ints
  import opened Text

  type byte = x: int | 0 <= x < 0x100
  type Bytes = seq<byte>

  /** A status code as the `http` crate holds it: a three-digit number. */
  type StatusNumber = x: int | 100 <= x <= 999 witness 200

  datatype StatusCode = StatusCode(code: StatusNumber)

  /** `StatusCode::is_success`: the 2xx range. */
  function IsSuccess(s: StatusCode): (b: bool)
    ensures b <==> s.code / 100 == 2
  {
    200 <= s.code <= 299
  }

  /** `StatusCode::from_u16`: every three-digit number, nothing else. */
  function StatusFromU16(n: u16): (r: Option<StatusCode>)
    ensures r.Some? <==> 100 <= n <= 999
    ensures r.Some? ==> r.value.code == n
  {
    if 100 <= n <= 999 then Some(StatusCode(n)) else None
  }

  /**
   * A parsed URL: its serialization (the text `to_string` gives and the key equality uses),
   * whether it names a host, and its path.
   */
  datatype Url = Url(serialization: string, hasHost: bool, path: string)

  /** What a transport `get`, `post` or `delete` hands back: the raw body and the status. */
  datatype RawResponse = RawResponse(body: Bytes, status: StatusCode)

  /**
   * `Url::path_segments`: `None` for a path that does not start with `/` (a URL that cannot be
   * a base), otherwise the rest of the path split on `/` — never an empty list.
   */
  function PathSegments(u: Url): (r: Option<seq<string>>)
    ensures r.None? <==> (|u.path| == 0 || u.path[0] != '/')
    ensures r.Some? ==> |r.value| >= 1 && Join(r.value, '/') == u.path[1..]
  {
    if |u.path| > 0 && u.path[0] == '/' then
      JoinOfSplit(u.path[1..], '/');
      Some(Split(u.path[1..], '/'))
    else None
  }

  /** The last segment of `/<anything>/<seg>` is `seg` when `seg` holds no `/`. */
  lemma LastPathSegment(u: Url, prefix: string, seg: string)
    requires u.path == "/" + prefix + "/" + seg
    requires '/' !in seg
    ensures PathSegments(u).Some?
    ensures Last(PathSegments(u).value) == seg
  {
    assert u.path[1..] == prefix + ['/'] + seg;
    LastPieceAfterSeparator(prefix, seg, '/');
  }
}

=== FILE: json.dfy ===
/**
 * An untyped JSON value, with the two accessors the client uses on one (`Value::get` with a
 * string key and `Value::as_str`). Numbers are kept as opaque integers: they are only carried.
 */
module JsonValues {
  import opened Results

  datatype Json =
    | Null
    | Bool(b: bool)
    | Number(n: int)
    | Str(s: string)
    | Array(elements: seq<Json>)
    | Object(fields: map<string, Json>)

  /** `Value::get(key)`: the field of an object; `None` for a missing key and for any non-object. */
  function Get(v: Json, key: string): (r: Option<Json>)
    ensures r.Some? <==> v.Object? && key in v.fields
    ensures r.Some? ==> r.value == v.fields[key]
  {
    match v
    case Object(fields) => if key in fields then Some(fields[key]) else None
    case _ => None
  }

  /** `Value::as_str`: the text of a JSON string, `None` for every other kind of value. */
  function AsStr(v: Json): (r: Option<string>)
    ensures r.Some? <==> v.Str?
    ensures r.Some? ==> v == Str(r.value)
  {
    if v.Str? then Some(v.s) else None
  }
}

=== FILE: pagination.dfy ===
/**
 * `get_paginated`: turning a head URL into the finite sequence of `Result<item>` the stream
 * yields, by fetching pages one after another and following each page's `"next"` link.
 *
 * The real stream is lazy and has no cycle guard, so a chain of pages may never end. Here the
 * stream is cut after `fuel` page fetches: `Paginate(env, url, n)` is what a consumer sees who
 * stops pulling once the n-th page has been consumed, and `PaginateFuelPrefix` shows that more
 * fuel only ever extends what was already yielded.
 */
module Pagination {
  import opened Results
  import opened Http
  import opened Errors
  import opened JsonValues
  import opened Api
  import opened Text

  /** One decoded page: its raw items and its relation-name → URL links. */
  datatype Page = Page(items: seq<Json>, links: map<string, Url>)

  /** What a paginated walk depends on besides its head URL. */
  datatype Env<T> = Env(
    entrypoint: Url,                     // the configured entrypoint relative links resolve against
    get: Getter,                         // the transport
    lossy: Lossy,                        // body bytes to text
    decodePage: Decoder<Page>,           // body text to a page of raw items
    decodeItem: Json -> Result<T, JsonError>,  // one raw item to a value
    join: Joiner)                        // URL join

  /**
   * Fetching one page is a single-item JSON fetch of the page type: the transport's error, a
   * non-2xx `ResponseStatus`, or the body decoded as a page.
   */
  function FetchPage<T>(env: Env<T>, url: Url): (r: Result<Page, Error>)
    ensures env.get(url).Err? ==> r == Err(env.get(url).error)
    ensures env.get(url).Ok? && !IsSuccess(env.get(url).value.status) ==>
              r == Err(ResponseStatus(env.get(url).value.status, env.lossy(env.get(url).value.body)))
    ensures r.Ok? ==> env.get(url).Ok? && IsSuccess(env.get(url).value.status)
                      && env.decodePage(env.lossy(env.get(url).value.body)) == Ok(r.value)
  {
    GetJsonMap(env.get, env.lossy, env.decodePage, url)
  }

  /** One raw item becomes `Ok(value)` or, if it does not decode, `Err(Deserialization)`. */
  function DecodeItem<T>(env: Env<T>, item: Json): (r: Result<T, Error>)
    ensures r.Ok? <==> env.decodeItem(item).Ok?
    ensures r.Ok? ==> r.value == env.decodeItem(item).value
    ensures r.Err? ==> r.error == Deserialization(env.decodeItem(item).error.text)
  {
    match env.decodeItem(item)
    case Ok(v) => Ok(v)
    case Err(j) => Err(FromJson(j))
  }

  /**
   * Resolving a `next` link: a link with a host is used as it is; one without is joined onto
   * the entrypoint, a join failure becoming `PaginationItemDeserialization`.
   */
  function ResolveLink<T>(env: Env<T>, link: Url): (r: Result<Url, Error>)
    ensures link.hasHost ==> r == Ok(link)
    ensures !link.hasHost ==> (r.Ok? <==> env.join(env.entrypoint, link.serialization).Ok?)
    ensures !link.hasHost && r.Ok? ==> r.value == env.join(env.entrypoint, link.serialization).value
    ensures r.Err? ==> r.error == PagItem(env.join(env.entrypoint, link.serialization).error.text)
  {
    if link.hasHost then Ok(link)
    else
      match env.join(env.entrypoint, link.serialization)
      case Ok(u) => Ok(u)
      case Err(p) => Err(PagItem(p.text))
  }

  /** Where a page leads: nowhere, or the resolution of its `"next"` link. */
  function NextOf<T>(env: Env<T>, page: Page): (r: Option<Result<Url, Error>>)
    ensures r.None? <==> "next" !in page.links
    ensures r.Some? ==> r.value == ResolveLink(env, page.links["next"])
  {
    if "next" in page.links then Some(ResolveLink(env, page.links["next"])) else None
  }

  /** The three steps a walk is made of, each already classified into the client's error type. */
  datatype Walk<T> = Walk(
    fetch: Url -> Result<Page, Error>,   // one page
    next: Page -> Option<Result<Url, Error>>,   // where a page leads, if anywhere
    decode: Json -> Result<T, Error>)    // one raw item

  /** The walk `get_paginated` performs in a given environment. */
  function WalkOf<T>(env: Env<T>): (w: Walk<T>)
    ensures forall url :: w.fetch(url) == FetchPage(env, url)
    ensures forall page :: w.next(page) == NextOf(env, page)
    ensures forall item :: w.decode(item) == DecodeItem(env, item)
  {
    Walk(url => FetchPage(env, url), page => NextOf(env, page), item => DecodeItem(env, item))
  }

  /**
   * The items of one page, in order: exactly one element per raw item, failures included;
   * position `i` is the decoding of raw item `i` and nothing else.
   */
  function DecodeItems<T>(w: Walk<T>, items: seq<Json>): (r: seq<Result<T, Error>>)
    ensures |r| == |items|
    ensures forall i :: 0 <= i < |items| ==> r[i] == w.decode(items[i])
  {
    seq(|items|, i requires 0 <= i < |items| => w.decode(items[i]))
  }

  /**
   * The stream of at most `fuel` pages starting at `url`. Nothing is fetched without fuel; a
   * first page that cannot be fetched is the whole stream, as its one error; otherwise the
   * stream opens with that page's items, in order, and a page that leads nowhere ends it.
   */
  function Paginate<T>(w: Walk<T>, url: Url, fuel: nat): (r: seq<Result<T, Error>>)
    ensures fuel == 0 ==> r == []
    ensures fuel > 0 && w.fetch(url).Err? ==> r == [Err(w.fetch(url).error)]
    ensures fuel > 0 && w.fetch(url).Ok? ==>
              var items := w.fetch(url).value.items;
              |r| >= |items| && forall i :: 0 <= i < |items| ==> r[i] == w.decode(items[i])
    ensures fuel > 0 && w.fetch(url).Ok? && w.next(w.fetch(url).value).None? ==>
              |r| == |w.fetch(url).value.items|
    decreases fuel
  {
    if fuel == 0 then []
    else
      match w.fetch(url)
      case Err(e) => [Err(e)]
      case Ok(page) =>
        DecodeItems(w, page.items) +
        match w.next(page)
        case None => []
        case Some(Err(e)) => [Err(e)]
        case Some(Ok(next)) => Paginate(w, next, fuel - 1)
  }

  /**
   * `get_paginated` from an already built head URL: a head page that cannot be fetched is the
   * one-error stream; otherwise the stream opens with the head page's items, each decoded.
   */
  function GetPaginated<T>(env: Env<T>, url: Url, fuel: nat): (r: seq<Result<T, Error>>)
    ensures fuel > 0 && FetchPage(env, url).Err? ==> r == [Err(FetchPage(env, url).error)]
    ensures fuel > 0 && FetchPage(env, url).Ok? ==>
              var items := FetchPage(env, url).value.items;
              |r| >= |items| && forall i :: 0 <= i < |items| ==> r[i] == DecodeItem(env, items[i])
  {
    Paginate(WalkOf(env), url, fuel)
  }

  // ---------------------------------------------------------------- reference description

  /**
   * A walk that fetched `pages` successfully: `urls[i]` served `pages[i]`, each page's `next`
   * link resolved to the following URL, and `urls` ends with the URL the walk goes to next.
   */
  ghost predicate Chain<T>(w: Walk<T>, urls: seq<Url>, pages: seq<Page>)
  {
    && |urls| == |pages| + 1
    && (forall i :: 0 <= i < |pages| ==> w.fetch(urls[i]) == Ok(pages[i]))
    && (forall i :: 0 <= i < |pages| ==> w.next(pages[i]) == Some(Ok(urls[i + 1])))
  }

  /** All items of the given pages, page after page, each page's in its own order. */
  function ItemsOf<T>(w: Walk<T>, pages: seq<Page>): seq<Result<T, Error>>
  {
    if |pages| == 0 then [] else DecodeItems(w, pages[0].items) + ItemsOf(w, pages[1..])
  }

  lemma {:induction false} ItemsOfAppend<T>(w: Walk<T>, pages: seq<Page>, last: Page)
    ensures ItemsOf(w, pages + [last]) == ItemsOf(w, pages) + DecodeItems(w, last.items)
    decreases |pages|
  {
    if |pages| > 0 {
      assert (pages + [last])[1..] == pages[1..] + [last];
      ItemsOfAppend(w, pages[1..], last);
    }
  }

  /** A walk through `pages` yields their items in page order, then continues where the chain leads. */
  lemma {:induction false} PaginateAlongChain<T>(w: Walk<T>, urls: seq<Url>, pages: seq<Page>, fuel: nat)
    requires Chain(w, urls, pages)
    requires fuel >= |pages|
    ensures Paginate(w, urls[0], fuel) == ItemsOf(w, pages) + Paginate(w, Last(urls), fuel - |pages|)
    decreases |pages|
  {
    if |pages| > 0 {
      ChainTail(w, urls, pages);
      PaginateAlongChain(w, urls[1..], pages[1..], fuel - 1);
      assert Last(urls[1..]) == Last(urls);
      PaginateStep(w, urls[0], pages[0], urls[1], fuel);
      Glue(Paginate(w, urls[0], fuel), DecodeItems(w, pages[0].items), Paginate(w, urls[1], fuel - 1),
           ItemsOf(w, pages[1..]), Paginate(w, Last(urls), fuel - |pages|), ItemsOf(w, pages));
    }
  }

  lemma ChainTail<T>(w: Walk<T>, urls: seq<Url>, pages: seq<Page>)
    requires Chain(w, urls, pages)
    requires |pages| > 0
    ensures w.fetch(urls[0]) == Ok(pages[0])
    ensures w.next(pages[0]) == Some(Ok(urls[1]))
    ensures Chain(w, urls[1..], pages[1..])
  {
    forall i | 0 <= i < |pages| - 1
      ensures w.fetch(urls[1..][i]) == Ok(pages[1..][i])
      ensures w.next(pages[1..][i]) == Some(Ok(urls[1..][i + 1]))
    {
      assert urls[1..][i] == urls[i + 1];
    }
  }

  lemma PaginateStep<T>(w: Walk<T>, url: Url, page: Page, next: Url, fuel: nat)
    requires fuel > 0
    requires w.fetch(url) == Ok(page)
    requires w.next(page) == Some(Ok(next))
    ensures Paginate(w, url, fuel) == DecodeItems(w, page.items) + Paginate(w, next, fuel - 1)
  {
  }

  lemma Glue<X>(whole: seq<X>, head: seq<X>, rest: seq<X>, mid: seq<X>, tail: seq<X>, items: seq<X>)
    requires whole == head + rest
    requires rest == mid + tail
    requires items == head + mid
    ensures whole == items + tail
  {
  }

  /**
   * A finite chain without failures: the stream is the concatenation of every page's items in
   * page order, and it ends with the first page that leads nowhere.
   */
  lemma PaginateFiniteChain<T>(w: Walk<T>, urls: seq<Url>, pages: seq<Page>, last: Page, fuel: nat)
    requires Chain(w, urls, pages)
    requires w.fetch(Last(urls)) == Ok(last)
    requires w.next(last).None?
    requires fuel > |pages|
    ensures Paginate(w, urls[0], fuel) == ItemsOf(w, pages + [last])
  {
    PaginateAlongChain(w, urls, pages, fuel);
    ItemsOfAppend(w, pages, last);
  }

  /**
   * A page that cannot be fetched or decoded (transport error, non-2xx status, bad page body)
   * ends the stream with that one error, after every item of the earlier pages.
   */
  lemma PaginatePageFailure<T>(w: Walk<T>, urls: seq<Url>, pages: seq<Page>, e: Error, fuel: nat)
    requires Chain(w, urls, pages)
    requires w.fetch(Last(urls)) == Err(e)
    requires fuel > |pages|
    ensures Paginate(w, urls[0], fuel) == ItemsOf(w, pages) + [Err(e)]
  {
    PaginateAlongChain(w, urls, pages, fuel);
  }

  /**
   * A `next` link that does not resolve ends the stream with that error, after the items of
   * its page and of every earlier one.
   */
  lemma PaginateLinkFailure<T>(w: Walk<T>, urls: seq<Url>, pages: seq<Page>, last: Page, e: Error, fuel: nat)
    requires Chain(w, urls, pages)
    requires w.fetch(Last(urls)) == Ok(last)
    requires w.next(last) == Some(Err(e))
    requires fuel > |pages|
    ensures Paginate(w, urls[0], fuel) == ItemsOf(w, pages + [last]) + [Err(e)]
  {
    PaginateAlongChain(w, urls, pages, fuel);
    ItemsOfAppend(w, pages, last);
  }

  /** Stopping earlier shows a prefix of what continuing would show. */
  lemma {:induction false} PaginateFuelPrefix<T>(w: Walk<T>, url: Url, fuel: nat, more: nat)
    requires fuel <= more
    ensures Paginate(w, url, fuel) <= Paginate(w, url, more)
    decreases fuel
  {
    if fuel > 0 && w.fetch(url).Ok? && w.next(w.fetch(url).value).Some? && w.next(w.fetch(url).value).value.Ok? {
      var next := w.next(w.fetch(url).value).value.value;
      PaginateFuelPrefix(w, next, fuel - 1, more - 1);
      PrefixStep(w, url, w.fetch(url).value, next, fuel, more);
    } else if fuel > 0 {
      PaginateEnds(w, url, fuel, more);
    }
  }

  /** A walk that cannot go past its first page shows the same whatever fuel is left. */
  lemma PaginateEnds<T>(w: Walk<T>, url: Url, fuel: nat, more: nat)
    requires fuel > 0 && more > 0
    requires !(w.fetch(url).Ok? && w.next(w.fetch(url).value).Some? && w.next(w.fetch(url).value).value.Ok?)
    ensures Paginate(w, url, fuel) == Paginate(w, url, more)
  {
    match w.fetch(url)
    case Err(e) =>
    case Ok(page) =>
  }

  lemma PrefixStep<T>(w: Walk<T>, url: Url, page: Page, next: Url, fuel: nat, more: nat)
    requires 0 < fuel <= more
    requires w.fetch(url) == Ok(page)
    requires w.next(page) == Some(Ok(next))
    requires Paginate(w, next, fuel - 1) <= Paginate(w, next, more - 1)
    ensures Paginate(w, url, fuel) <= Paginate(w, url, more)
  {
    PaginateStep(w, url, page, next, fuel);
    PaginateStep(w, url, page, next, more);
    PrefixAfterCommonHead(DecodeItems(w, page.items), Paginate(w, next, fuel - 1), Paginate(w, next, more - 1));
  }

  lemma PrefixAfterCommonHead<X>(head: seq<X>, a: seq<X>, b: seq<X>)
    requires a <= b
    ensures head + a <= head + b
  {
    assert (head + b)[..|head + a|] == head + a;
  }

  /**
   * Nothing stops a page that links back to itself: every extra page pulled yields its items
   * again, so the stream grows without bound.
   */
  lemma {:induction false} SelfLinkedPageNeverEnds<T>(w: Walk<T>, url: Url, page: Page, fuel: nat)
    requires w.fetch(url) == Ok(page)
    requires w.next(page) == Some(Ok(url))
    ensures |Paginate(w, url, fuel)| == fuel * |page.items|
    decreases fuel
  {
    if fuel > 0 {
      SelfLinkedPageNeverEnds(w, url, page, fuel - 1);
    }
  }

  // ---------------------------------------------------------------- the client's walk

  /**
   * In the client's walk an item that fails to decode costs exactly its own position, as a
   * `Deserialization` error; every other item decodes as it would on its own.
   */
  lemma ItemFailureIsIsolated<T>(env: Env<T>, items: seq<Json>, k: nat)
    requires k < |items|
    requires env.decodeItem(items[k]).Err?
    ensures |DecodeItems(WalkOf(env), items)| == |items|
    ensures DecodeItems(WalkOf(env), items)[k] == Err(Deserialization(env.decodeItem(items[k]).error.text))
    ensures forall i :: 0 <= i < |items| && i != k ==>
              DecodeItems(WalkOf(env), items)[i] == DecodeItem(env, items[i])
  {
  }

  /**
   * In the client's walk a broken `next` link surfaces as `PaginationItemDeserialization`,
   * never as any other error, and only for a link without a host.
   */
  lemma LinkFailureIsPaginationError<T>(env: Env<T>, page: Page, e: Error)
    requires WalkOf(env).next(page) == Some(Err(e))
    ensures e.PaginationItemDeserialization?
    ensures !page.links["next"].hasHost
  {
  }

  /**
   * In the client's walk a page leads nowhere exactly when it has no `"next"` link, and a
   * link that names a host is followed as it is.
   */
  lemma ClientWalkFollowsNextLink<T>(env: Env<T>, page: Page)
    ensures WalkOf(env).next(page).None? <==> "next" !in page.links
    ensures "next" in page.links && page.links["next"].hasHost ==>
              WalkOf(env).next(page) == Some(Ok(page.links["next"]))
  {
  }

  /** A page fetch failure in the client's walk is exactly what `get_json_map` reports. */
  lemma PageFailureIsFetchFailure<T>(env: Env<T>, url: Url, fuel: nat)
    requires fuel > 0
    requires FetchPage(env, url).Err?
    ensures GetPaginated(env, url, fuel) == [Err(FetchPage(env, url).error)]
  {
  }

  /**
   * A request-surface stream: when building the head URL fails, the one-element error stream;
   * otherwise the paginated walk from it.
   */
  function StreamFrom<T>(env: Env<T>, head: Result<Url, Error>, fuel: nat): (s: seq<Result<T, Error>>)
    ensures head.Err? ==> s == OnceErr(head.error)
    ensures head.Ok? ==> s == GetPaginated(env, head.value, fuel)
  {
    match head
    case Err(e) => OnceErr(e)
    case Ok(url) => GetPaginated(env, url, fuel)
  }
}

=== FILE: post_band.dfy ===
/**
 * The band-details builder: name, band type, frequency, default bandwidth and IO hardware in
 * that order, then optional setters on the finished `BandDetails` body. Frequencies, powers and
 * gains are IEEE doubles in the code; they are only carried, never computed with, so the model
 * keeps their bit patterns.
 */
module PostBand {
  import opened Results

  /** A 64-bit float, kept as its bits. */
  datatype F64 = F64(bits: bv64)

  /** The band types, polarizations and IO hardware names of the service's model crate. */
  datatype BandKind = BandKind(name: string)
  datatype PolarizationMode = PolarizationMode(name: string)
  datatype Hardware = Hardware(name: string)

  datatype IoConfiguration = IoConfiguration(
    startHexPattern: Option<string>,
    endHexPattern: Option<string>,
    stripPattern: bool,
    ioHardware: Option<Hardware>)

  datatype NoName = NoName
  datatype NoBandType = NoBandType(name: string)
  datatype NoFrequency = NoFrequency(name: string, bandType: BandKind)
  datatype NoBandWidth = NoBandWidth(name: string, bandType: BandKind, frequencyMghz: F64)
  datatype NoIoConfig = NoIoConfig(name: string, bandType: BandKind, frequencyMghz: F64, defaultBandWidthMghz: F64)

  /** The body that is posted to `satellite_bands`. */
  datatype BandDetails = BandDetails(
    name: string,
    typ: BandKind,
    frequencyMghz: F64,
    defaultBandWidthMghz: F64,
    modulation: Option<string>,
    eirp: Option<F64>,
    gain: Option<F64>,
    ioConfiguration: IoConfiguration,
    polarization: Option<PolarizationMode>,
    manualTransmitControl: bool)

  function Name(b: NoName, name: string): (r: NoBandType)
    ensures r.name == name
  {
    NoBandType(name)
  }

  function BandType(b: NoBandType, bandType: BandKind): (r: NoFrequency)
    ensures r.name == b.name && r.bandType == bandType
  {
    NoFrequency(b.name, bandType)
  }

  function Frequency(b: NoFrequency, frequency: F64): (r: NoBandWidth)
    ensures r.name == b.name && r.bandType == b.bandType && r.frequencyMghz == frequency
  {
    NoBandWidth(b.name, b.bandType, frequency)
  }

  function DefaultBandWidth(b: NoBandWidth, bandwidth: F64): (r: NoIoConfig)
    ensures r.name == b.name && r.bandType == b.bandType && r.frequencyMghz == b.frequencyMghz
    ensures r.defaultBandWidthMghz == bandwidth
  {
    NoIoConfig(b.name, b.bandType, b.frequencyMghz, bandwidth)
  }

  /**
   * `io_hardware`: the finished body. The IO configuration holds only the hardware (no
   * patterns, no stripping); every optional field is empty and manual transmit control is off.
   */
  function IoHardware(b: NoIoConfig, hardware: Hardware): (r: BandDetails)
    ensures r.name == b.name && r.typ == b.bandType
    ensures r.frequencyMghz == b.frequencyMghz && r.defaultBandWidthMghz == b.defaultBandWidthMghz
    ensures r.ioConfiguration.ioHardware == Some(hardware)
    ensures r.ioConfiguration.startHexPattern.None? && r.ioConfiguration.endHexPattern.None?
    ensures !r.ioConfiguration.stripPattern
    ensures r.modulation.None? && r.eirp.None? && r.gain.None? && r.polarization.None?
    ensures !r.manualTransmitControl
  {
    BandDetails(b.name, b.bandType, b.frequencyMghz, b.defaultBandWidthMghz, None, None, None,
                IoConfiguration(None, None, false, Some(hardware)), None, false)
  }

  function Polarization(d: BandDetails, p: PolarizationMode): (r: BandDetails)
    ensures r.polarization == Some(p)
    ensures r.(polarization := d.polarization) == d
  {
    d.(polarization := Some(p))
  }

  function Modulation(d: BandDetails, m: string): (r: BandDetails)
    ensures r.modulation == Some(m)
    ensures r.(modulation := d.modulation) == d
  {
    d.(modulation := Some(m))
  }

  function EffectiveIsotropicRadiativePower(d: BandDetails, eirp: F64): (r: BandDetails)
    ensures r.eirp == Some(eirp)
    ensures r.(eirp := d.eirp) == d
  {
    d.(eirp := Some(eirp))
  }

  function Gain(d: BandDetails, gain: F64): (r: BandDetails)
    ensures r.gain == Some(gain)
    ensures r.(gain := d.gain) == d
  {
    d.(gain := Some(gain))
  }

  function ManualTransmitControl(d: BandDetails, control: bool): (r: BandDetails)
    ensures r.manualTransmitControl == control
    ensures r.(manualTransmitControl := d.manualTransmitControl) == d
  {
    d.(manualTransmitControl := control)
  }

  /** The stages carry every earlier choice into the finished body unchanged. */
  lemma StagesCarryForward(b: NoName, name: string, t: BandKind, f: F64, w: F64, hw: Hardware)
    ensures var d := IoHardware(DefaultBandWidth(Frequency(BandType(Name(b, name), t), f), w), hw);
            d.name == name && d.typ == t && d.frequencyMghz == f && d.defaultBandWidthMghz == w
  {
  }

  /** The optional setters touch different fields, so their order does not matter. */
  lemma SettersCommute(d: BandDetails, p: PolarizationMode, m: string, e: F64, g: F64, c: bool)
    ensures Polarization(Modulation(d, m), p) == Modulation(Polarization(d, p), m)
    ensures Gain(EffectiveIsotropicRadiativePower(d, e), g) == EffectiveIsotropicRadiativePower(Gain(d, g), e)
    ensures ManualTransmitControl(Gain(d, g), c) == Gain(ManualTransmitControl(d, c), g)
  {
  }

  /** Setting the same field twice keeps the last value. */
  lemma LastSetterWins(d: BandDetails, c1: bool, c2: bool, g1: F64, g2: F64)
    ensures ManualTransmitControl(ManualTransmitControl(d, c1), c2) == ManualTransmitControl(d, c2)
    ensures Gain(Gain(d, g1), g2) == Gain(d, g2)
  {
  }
}

=== FILE: post_overrides.dfy ===
/**
 * The override builder: name, satellite and satellite configuration in that order, then any
 * number of `key = value` properties. The configuration can be given by id; the code builds
 * that id's URL under `satellites/`, where `satellite_configurations/` is evidently meant, so
 * both the step as written and the corrected step are modelled here.
 */
module PostOverrides {
  import opened Ints
  import opened Endpoints
  import opened PostPaths

  datatype NoName = NoName
  datatype NoSatellite = NoSatellite(name: string)
  datatype NoConfig = NoConfig(name: string, satellite: string)

  /** The body that is posted to `overrides`. */
  datatype Override = Override(
    name: string,
    satellite: string,
    configuration: string,
    properties: map<string, string>)

  function Name(b: NoName, name: string): (r: NoSatellite)
    ensures r.name == name
  {
    NoSatellite(name)
  }

  function SatelliteUrl(b: NoSatellite, url: string): (r: NoConfig)
    ensures r.name == b.name && r.satellite == url
  {
    NoConfig(b.name, url)
  }

  /** `satellite_id`: the satellite step with the URL the satellite's read call fetches. */
  function SatelliteId(b: NoSatellite, urlOf: UrlOf, id: i32): (r: NoConfig)
    ensures r == SatelliteUrl(b, urlOf(PathOf(SatelliteById(id))))
  {
    ReferencesAreReadUrls(urlOf, SatelliteById(id));
    SatelliteUrl(b, IdUrl(urlOf, SATELLITES, id))
  }

  /** `satellite_configuration_url`: the finished body, with no properties yet. */
  function SatelliteConfigurationUrl(b: NoConfig, url: string): (r: Override)
    ensures r.name == b.name && r.satellite == b.satellite && r.configuration == url
    ensures |r.properties| == 0
  {
    Override(b.name, b.satellite, url, map[])
  }

  /** `satellite_configuration_id` as the code has it: the id's URL under `satellites/`. */
  function SatelliteConfigurationIdAsWritten(b: NoConfig, urlOf: UrlOf, id: i32): (r: Override)
    ensures r == SatelliteConfigurationUrl(b, urlOf(PathOf(SatelliteById(id))))
  {
    ReferencesAreReadUrls(urlOf, SatelliteById(id));
    SatelliteConfigurationUrl(b, IdUrl(urlOf, SATELLITES, id))
  }

  /** `satellite_configuration_id` as intended: the URL the configuration's read call fetches. */
  function SatelliteConfigurationId(b: NoConfig, urlOf: UrlOf, id: i32): (r: Override)
    ensures r == SatelliteConfigurationUrl(b, urlOf(PathOf(SatelliteConfigurationById(id))))
  {
    ReferencesAreReadUrls(urlOf, SatelliteConfigurationById(id));
    SatelliteConfigurationUrl(b, IdUrl(urlOf, SATELLITE_CONFIGURATIONS, id))
  }

  /**
   * As written, the configuration reference names the satellite with that id, which is never
   * the configuration with that id: with a URL rendering that keeps distinct paths distinct,
   * the stored configuration differs from the intended one for every id.
   */
  lemma ConfigurationIdNamesSatellite(b: NoConfig, urlOf: UrlOf, id: i32)
    requires forall p, q :: urlOf(p) == urlOf(q) ==> p == q
    ensures SatelliteConfigurationIdAsWritten(b, urlOf, id).configuration == urlOf(PathOf(SatelliteById(id)))
    ensures SatelliteConfigurationIdAsWritten(b, urlOf, id) != SatelliteConfigurationId(b, urlOf, id)
  {
    ReferencesAreReadUrls(urlOf, SatelliteById(id));
    ReferencesAreReadUrls(urlOf, SatelliteConfigurationById(id));
    SatellitePathIsNotConfigurationPath(id, id);
  }

  /** The name and satellite chosen at the first steps reach the body unchanged, whichever configuration step is used. */
  lemma StagesCarryForward(b: NoName, name: string, satellite: string, configuration: string, urlOf: UrlOf, id: i32)
    ensures var o := SatelliteConfigurationUrl(SatelliteUrl(Name(b, name), satellite), configuration);
            o.name == name && o.satellite == satellite
    ensures var o := SatelliteConfigurationId(SatelliteUrl(Name(b, name), satellite), urlOf, id);
            o.name == name && o.satellite == satellite
    ensures var o := SatelliteConfigurationIdAsWritten(SatelliteUrl(Name(b, name), satellite), urlOf, id);
            o.name == name && o.satellite == satellite
  {
  }

  /** `add_property`: the key now maps to the value's text; every other key is as it was. */
  function AddProperty(o: Override, key: string, value: string): (r: Override)
    ensures key in r.properties && r.properties[key] == value
    ensures r.properties.Keys == o.properties.Keys + {key}
    ensures forall k :: k in o.properties && k != key ==> r.properties[k] == o.properties[k]
    ensures r.(properties := o.properties) == o
  {
    o.(properties := o.properties[key := value])
  }

  /** Re-adding a key replaces its value; adding two different keys commutes. */
  lemma AddPropertyLaws(o: Override, k1: string, k2: string, v1: string, v2: string)
    ensures AddProperty(AddProperty(o, k1, v1), k1, v2) == AddProperty(o, k1, v2)
    ensures k1 != k2 ==> AddProperty(AddProperty(o, k1, v1), k2, v2) == AddProperty(AddProperty(o, k2, v2), k1, v1)
  {
    var m := o.properties;
    assert m[k1 := v1][k1 := v2] == m[k1 := v2];
    if k1 != k2 {
      assert m[k1 := v1][k2 := v2] == m[k2 := v2][k1 := v1];
    }
  }
}

=== FILE: post_paths.dfy ===
/**
 * How the POST builders turn an id into the URL text of the object it names: the path
 * `collection/{id}` handed to `path_to_url` and rendered as text. The rendering belongs to the
 * client's entrypoint and the URL library, so it is a parameter, total on every path.
 */
module PostPaths {
  import opened Ints
  import opened Endpoints

  /** `path_to_url(path).to_string()`: the URL text for a path. */
  type UrlOf = string -> string

  /** The URL text for `collection/{id}`. */
  function IdUrl(urlOf: UrlOf, collection: string, id: i32): string
  {
    urlOf(IdPath(collection, id))
  }

  /** The URL text for `collection/{id}` of each id, in the order the ids came. */
  function IdUrls(urlOf: UrlOf, collection: string, ids: seq<i32>): (r: seq<string>)
    ensures |r| == |ids|
    ensures forall k :: 0 <= k < |ids| ==> r[k] == IdUrl(urlOf, collection, ids[k])
  {
    seq(|ids|, k requires 0 <= k < |ids| => IdUrl(urlOf, collection, ids[k]))
  }

  /** Mapping ids to URLs commutes with concatenation: no id is dropped, added or moved. */
  lemma IdUrlsAppend(urlOf: UrlOf, collection: string, a: seq<i32>, b: seq<i32>)
    ensures IdUrls(urlOf, collection, a + b) == IdUrls(urlOf, collection, a) + IdUrls(urlOf, collection, b)
  {
    var whole := IdUrls(urlOf, collection, a + b);
    var parts := IdUrls(urlOf, collection, a) + IdUrls(urlOf, collection, b);
    forall k | 0 <= k < |whole| ensures whole[k] == parts[k] {
      if k >= |a| { assert (a + b)[k] == b[k - |a|]; }
    }
  }

  /**
   * A reference a builder stores by id is the URL the by-id read call of that collection
   * fetches: bands, satellites, sites, site configurations and satellite configurations alike.
   */
  lemma ReferencesAreReadUrls(urlOf: UrlOf, read: ReadOp)
    requires IdRoute(read).Some?
    ensures IdUrl(urlOf, IdRoute(read).value.0, IdRoute(read).value.1) == urlOf(PathOf(read))
  {
    PathOfIdRoute(read);
  }

  /** A satellite path and a satellite-configuration path never coincide, whatever the ids. */
  lemma SatellitePathIsNotConfigurationPath(a: i32, b: i32)
    ensures IdPath(SATELLITES, a) != IdPath(SATELLITE_CONFIGURATIONS, b)
  {
    assert IdPath(SATELLITES, a)[9] == 's';
    assert IdPath(SATELLITE_CONFIGURATIONS, b)[9] == '_';
  }
}

=== FILE: post_request.dfy ===
/**
 * The task-request builder: a fixed sequence of stages (task kind, target time, duration,
 * satellite, site, site configuration, bands) ending in the `TaskRequest` body that is posted,
 * plus the two setters allowed on the finished request. Each stage is its own datatype, so a
 * step can only be taken in its place.
 */
module PostRequest {
  import opened Results
  import opened Ints
  import opened Endpoints
  import opened PostPaths

  /** The task types a request can carry. */
  datatype TaskType = Exact | Before | After | Around | Test

  datatype FlexTaskKind = FlexBefore | FlexAfter | FlexAround

  /** The kind chosen at the first step, with what that kind needs. */
  datatype TaskKind =
    | ExactKind
    | FlexKind(flexKind: FlexTaskKind, hoursOfFlex: u8)
    | TestKind(testFile: string)

  datatype NoType = NoType
  datatype NoTime = NoTime(kind: TaskKind)
  datatype NoDuration = NoDuration(kind: TaskKind, time: Time)
  datatype NoSatellite = NoSatellite(kind: TaskKind, time: Time, duration: u64)
  datatype NoSite = NoSite(kind: TaskKind, time: Time, duration: u64, satellite: string)
  datatype NoConfig = NoConfig(kind: TaskKind, time: Time, duration: u64, satellite: string, site: string)
  datatype NoBand = NoBand(kind: TaskKind, time: Time, duration: u64, satellite: string, site: string, configuration: string)

  /** The body that is posted to `requests`. */
  datatype TaskRequest = TaskRequest(
    typ: TaskType,
    site: string,
    satellite: string,
    configuration: string,
    targetBands: seq<string>,
    targetDate: string,
    duration: u64,
    minimumDuration: Option<u64>,
    hoursOfFlex: Option<u8>,
    testFile: Option<string>,
    withOverride: Option<string>)

  // ---------------------------------------------------------------- the task kind

  function ExactTask(b: NoType): (r: NoTime)
    ensures r.kind.ExactKind?
  {
    NoTime(ExactKind)
  }

  function FlexTask(b: NoType, kind: FlexTaskKind, hoursOfFlex: u8): (r: NoTime)
    ensures r.kind.FlexKind? && r.kind.flexKind == kind && r.kind.hoursOfFlex == hoursOfFlex
  {
    NoTime(FlexKind(kind, hoursOfFlex))
  }

  function FlexTaskAfter(b: NoType, hoursOfFlex: u8): (r: NoTime)
    ensures r.kind == FlexKind(FlexAfter, hoursOfFlex)
  {
    FlexTask(b, FlexAfter, hoursOfFlex)
  }

  function FlexTaskAround(b: NoType, hoursOfFlex: u8): (r: NoTime)
    ensures r.kind == FlexKind(FlexAround, hoursOfFlex)
  {
    FlexTask(b, FlexAround, hoursOfFlex)
  }

  function FlexTaskBefore(b: NoType, hoursOfFlex: u8): (r: NoTime)
    ensures r.kind == FlexKind(FlexBefore, hoursOfFlex)
  {
    FlexTask(b, FlexBefore, hoursOfFlex)
  }

  /** The three shorthands are `flex_task` with their own kind. */
  lemma FlexShorthands(b: NoType, h: u8)
    ensures FlexTaskAfter(b, h) == FlexTask(b, FlexAfter, h)
    ensures FlexTaskAround(b, h) == FlexTask(b, FlexAround, h)
    ensures FlexTaskBefore(b, h) == FlexTask(b, FlexBefore, h)
  {
  }

  function TestTask(b: NoType, testFile: string): (r: NoTime)
    ensures r.kind == TestKind(testFile)
  {
    NoTime(TestKind(testFile))
  }

  // ---------------------------------------------------------------- the stages

  function TargetTimeUtc(b: NoTime, time: Time): (r: NoDuration)
    ensures r.kind == b.kind && r.time == time
  {
    NoDuration(b.kind, time)
  }

  function TaskDuration(b: NoDuration, seconds: u64): (r: NoSatellite)
    ensures r.kind == b.kind && r.time == b.time && r.duration == seconds
  {
    NoSatellite(b.kind, b.time, seconds)
  }

  function SatelliteUrl(b: NoSatellite, url: string): (r: NoSite)
    ensures r.kind == b.kind && r.time == b.time && r.duration == b.duration
    ensures r.satellite == url
  {
    NoSite(b.kind, b.time, b.duration, url)
  }

  /** `satellite_id`: the satellite step with the URL of `satellites/{id}`. */
  function SatelliteId(b: NoSatellite, urlOf: UrlOf, id: i32): (r: NoSite)
    ensures r == SatelliteUrl(b, urlOf(PathOf(SatelliteById(id))))
  {
    ReferencesAreReadUrls(urlOf, SatelliteById(id));
    SatelliteUrl(b, IdUrl(urlOf, SATELLITES, id))
  }

  function SiteUrl(b: NoSite, url: string): (r: NoConfig)
    ensures r.kind == b.kind && r.time == b.time && r.duration == b.duration
    ensures r.satellite == b.satellite && r.site == url
  {
    NoConfig(b.kind, b.time, b.duration, b.satellite, url)
  }

  /** `site_id`: the site step with the URL of `sites/{id}`. */
  function SiteId(b: NoSite, urlOf: UrlOf, id: i32): (r: NoConfig)
    ensures r == SiteUrl(b, urlOf(PathOf(SiteById(id))))
  {
    ReferencesAreReadUrls(urlOf, SiteById(id));
    SiteUrl(b, IdUrl(urlOf, SITES, id))
  }

  function SiteConfigurationUrl(b: NoConfig, url: string): (r: NoBand)
    ensures r.kind == b.kind && r.time == b.time && r.duration == b.duration
    ensures r.satellite == b.satellite && r.site == b.site && r.configuration == url
  {
    NoBand(b.kind, b.time, b.duration, b.satellite, b.site, url)
  }

  /** `site_configuration_id`: the configuration step with the URL of `configurations/{id}`. */
  function SiteConfigurationId(b: NoConfig, urlOf: UrlOf, id: i32): (r: NoBand)
    ensures r == SiteConfigurationUrl(b, urlOf(PathOf(SiteConfigurationById(id))))
  {
    ReferencesAreReadUrls(urlOf, SiteConfigurationById(id));
    SiteConfigurationUrl(b, IdUrl(urlOf, CONFIGURATIONS, id))
  }

  // ---------------------------------------------------------------- the request

  /** The task type each kind stands for. */
  function TypeOfKind(kind: TaskKind): TaskType
  {
    match kind
    case ExactKind => Exact
    case TestKind(_) => Test
    case FlexKind(FlexBefore, _) => Before
    case FlexKind(FlexAfter, _) => After
    case FlexKind(FlexAround, _) => Around
  }

  /**
   * `TaskInner::adjust`: the type of the kind, plus the test file of a test task or the flex
   * hours of a flex task. Nothing else in the request moves.
   */
  function Adjust(kind: TaskKind, req: TaskRequest): (r: TaskRequest)
    ensures r.typ == TypeOfKind(kind)
    ensures kind.TestKind? ==> r.testFile == Some(kind.testFile) && r.hoursOfFlex == req.hoursOfFlex
    ensures kind.FlexKind? ==> r.hoursOfFlex == Some(kind.hoursOfFlex) && r.testFile == req.testFile
    ensures kind.ExactKind? ==> r.hoursOfFlex == req.hoursOfFlex && r.testFile == req.testFile
    ensures r.(typ := req.typ, hoursOfFlex := req.hoursOfFlex, testFile := req.testFile) == req
  {
    match kind
    case TestKind(file) => req.(typ := Test, testFile := Some(file))
    case FlexKind(k, hours) =>
      var typ := match k case FlexBefore => Before case FlexAfter => After case FlexAround => Around;
      req.(typ := typ, hoursOfFlex := Some(hours))
    case ExactKind => req.(typ := Exact)
  }

  /**
   * `band_urls`: the request assembled from the stages — the target date formatted from the
   * target time, the bands in the order given, the minimum duration equal to the duration, no
   * override — and then adjusted by the task kind. The formatting is unwrapped in the code, so
   * a time the formatter rejects is the caller's to avoid.
   */
  function BandUrls(b: NoBand, format: Formatter, urls: seq<string>): (r: TaskRequest)
    requires format(b.time).Ok?
    ensures r.site == b.site && r.satellite == b.satellite && r.configuration == b.configuration
    ensures r.targetBands == urls
    ensures r.targetDate == format(b.time).value
    ensures r.duration == b.duration && r.minimumDuration == Some(b.duration)
    ensures r.withOverride == None
    ensures r.typ == TypeOfKind(b.kind)
    ensures r.hoursOfFlex == (if b.kind.FlexKind? then Some(b.kind.hoursOfFlex) else None)
    ensures r.testFile == (if b.kind.TestKind? then Some(b.kind.testFile) else None)
  {
    var state := TaskRequest(After, b.site, b.satellite, b.configuration, urls, format(b.time).value,
                             b.duration, Some(b.duration), None, None, None);
    Adjust(b.kind, state)
  }

  /** `band_ids`: `band_urls` with the URL of `satellite_bands/{id}` for each id, in order. */
  function BandIds(b: NoBand, urlOf: UrlOf, format: Formatter, ids: seq<i32>): (r: TaskRequest)
    requires format(b.time).Ok?
    ensures |r.targetBands| == |ids|
    ensures forall k :: 0 <= k < |ids| ==> r.targetBands[k] == urlOf(PathOf(SatelliteBandById(ids[k])))
    ensures r.(targetBands := []) == BandUrls(b, format, [])
  {
    var bands := IdUrls(urlOf, SATELLITE_BANDS, ids);
    assert forall k :: 0 <= k < |ids| ==> bands[k] == urlOf(PathOf(SatelliteBandById(ids[k]))) by {
      forall k | 0 <= k < |ids| ensures bands[k] == urlOf(PathOf(SatelliteBandById(ids[k]))) {
        ReferencesAreReadUrls(urlOf, SatelliteBandById(ids[k]));
      }
    }
    BandUrls(b, format, bands)
  }

  /** `task_minimum_duration`: the minimum duration, and nothing else. */
  function TaskMinimumDuration(req: TaskRequest, duration: u64): (r: TaskRequest)
    ensures r.minimumDuration == Some(duration)
    ensures r.(minimumDuration := req.minimumDuration) == req
  {
    req.(minimumDuration := Some(duration))
  }

  /** `override_url`: the override, and nothing else. */
  function OverrideUrl(req: TaskRequest, url: string): (r: TaskRequest)
    ensures r.withOverride == Some(url)
    ensures r.(withOverride := req.withOverride) == req
  {
    req.(withOverride := Some(url))
  }

  /** `override_id`: the override step with the URL of `overrides/{id}`. */
  function OverrideId(req: TaskRequest, urlOf: UrlOf, id: i32): (r: TaskRequest)
    ensures r.withOverride == Some(urlOf(IdPath(OVERRIDES, id)))
    ensures r.(withOverride := req.withOverride) == req
  {
    OverrideUrl(req, IdUrl(urlOf, OVERRIDES, id))
  }

  /** Setting either field twice keeps the last value; setting both, in either order, gives the same request. */
  lemma LastSetterWins(req: TaskRequest, d1: u64, d2: u64, u1: string, u2: string)
    ensures TaskMinimumDuration(TaskMinimumDuration(req, d1), d2) == TaskMinimumDuration(req, d2)
    ensures OverrideUrl(OverrideUrl(req, u1), u2) == OverrideUrl(req, u2)
    ensures TaskMinimumDuration(OverrideUrl(req, u1), d1) == OverrideUrl(TaskMinimumDuration(req, d1), u1)
  {
  }

  /** An exact task's request has no flex hours and no test file, whatever the other stages held. */
  lemma ExactRequestHasNoExtras(b: NoType, time: Time, seconds: u64, satellite: string, site: string,
                                configuration: string, format: Formatter, urls: seq<string>)
    requires format(time).Ok?
    ensures var req := BandUrls(SiteConfigurationUrl(SiteUrl(SatelliteUrl(TaskDuration(TargetTimeUtc(
                          ExactTask(b), time), seconds), satellite), site), configuration), format, urls);
            req == TaskRequest(Exact, site, satellite, configuration, urls, format(time).value,
                               seconds, Some(seconds), None, None, None)
  {
  }
}

=== FILE: post_sat_config.dfy ===
/**
 * The satellite-configuration builder: a name, then the bands (as URL text, or as ids whose
 * URLs are resolved against the entrypoint, possibly failing), then optional Doppler and notes.
 * Sending first converts every band entry to URL text, in order, and stops at the first entry
 * that does not convert.
 */
module PostSatConfig {
  import opened Results
  import opened Ints
  import opened Http
  import opened Errors
  import opened Api
  import opened Endpoints

  /**
   * A band entry: URL text given by the caller, or the outcome of resolving a band path. The
   * code's `UrlResult` and its `try_convert` are not part of this model; the conversion is a
   * parameter.
   */
  datatype UrlResult =
    | Checked(url: string)
    | Unchecked(result: Result<Url, Error>)

  type Converter = UrlResult -> Result<string, Error>

  datatype NoName = NoName
  datatype NoBand = NoBand(name: string)

  /** The builder's finished state. */
  datatype SatelliteConfiguration = SatelliteConfiguration(
    name: string,
    doppler: Option<bool>,
    notes: Option<string>,
    bandDetails: seq<UrlResult>)

  /** The body that is posted: the same, with every band as URL text. */
  datatype SatelliteConfigurationInner = SatelliteConfigurationInner(
    name: string,
    doppler: Option<bool>,
    notes: Option<string>,
    bandDetails: seq<string>)

  function Name(b: NoName, name: string): (r: NoBand)
    ensures r.name == name
  {
    NoBand(name)
  }

  /** `band_results`: the finished state with the given entries, no Doppler and no notes. */
  function BandResults(b: NoBand, entries: seq<UrlResult>): (r: SatelliteConfiguration)
    ensures r.name == b.name && r.bandDetails == entries
    ensures r.doppler.None? && r.notes.None?
  {
    SatelliteConfiguration(b.name, None, None, entries)
  }

  /** `band_urls`: each URL kept as a checked entry, in order. */
  function BandUrls(b: NoBand, urls: seq<string>): (r: SatelliteConfiguration)
    ensures r.name == b.name && r.doppler.None? && r.notes.None?
    ensures |r.bandDetails| == |urls|
    ensures forall k :: 0 <= k < |urls| ==> r.bandDetails[k] == Checked(urls[k])
  {
    BandResults(b, seq(|urls|, k requires 0 <= k < |urls| => Checked(urls[k])))
  }

  /** `band_ids`: each id's `satellite_bands/{id}` resolved against the entrypoint, kept unchecked, in order. */
  function BandIds(b: NoBand, entrypoint: Url, join: Joiner, ids: seq<i32>): (r: SatelliteConfiguration)
    ensures r.name == b.name && r.doppler.None? && r.notes.None?
    ensures |r.bandDetails| == |ids|
    ensures forall k :: 0 <= k < |ids| ==>
              r.bandDetails[k] == Unchecked(PathToUrl(entrypoint, join, PathOf(SatelliteBandById(ids[k]))))
  {
    var entries := seq(|ids|, k requires 0 <= k < |ids| =>
                         Unchecked(PathToUrl(entrypoint, join, IdPath(SATELLITE_BANDS, ids[k]))));
    assert forall k :: 0 <= k < |ids| ==>
             entries[k] == Unchecked(PathToUrl(entrypoint, join, PathOf(SatelliteBandById(ids[k])))) by {
      forall k | 0 <= k < |ids|
        ensures entries[k] == Unchecked(PathToUrl(entrypoint, join, PathOf(SatelliteBandById(ids[k]))))
      {
        assert PathOf(SatelliteBandById(ids[k])) == IdPath(SATELLITE_BANDS, ids[k]);
      }
    }
    BandResults(b, entries)
  }

  function Doppler(c: SatelliteConfiguration, doppler: bool): (r: SatelliteConfiguration)
    ensures r.doppler == Some(doppler)
    ensures r.(doppler := c.doppler) == c
  {
    c.(doppler := Some(doppler))
  }

  function Notes(c: SatelliteConfiguration, notes: string): (r: SatelliteConfiguration)
    ensures r.notes == Some(notes)
    ensures r.(notes := c.notes) == c
  {
    c.(notes := Some(notes))
  }

  /** The two setters touch different fields and the last call of each wins. */
  lemma SettersCommute(c: SatelliteConfiguration, d1: bool, d2: bool, n: string)
    ensures Doppler(Notes(c, n), d1) == Notes(Doppler(c, d1), n)
    ensures Doppler(Doppler(c, d1), d2) == Doppler(c, d2)
  {
  }

  /** The position of the first entry that does not convert, if there is one. */
  function FirstFailure(entries: seq<UrlResult>, convert: Converter): (r: Option<nat>)
    ensures r.None? <==> forall k :: 0 <= k < |entries| ==> convert(entries[k]).Ok?
    ensures r.Some? ==> r.value < |entries| && convert(entries[r.value]).Err?
    ensures r.Some? ==> forall k :: 0 <= k < r.value ==> convert(entries[k]).Ok?
    decreases |entries|
  {
    if |entries| == 0 then None
    else if convert(entries[0]).Err? then Some(0)
    else
      match FirstFailure(entries[1..], convert)
      case None =>
        assert forall k :: 0 <= k < |entries| ==> convert(entries[k]).Ok? by {
          forall k | 0 <= k < |entries| ensures convert(entries[k]).Ok? {
            if k > 0 { assert entries[k] == entries[1..][k - 1]; }
          }
        }
        None
      case Some(i) =>
        assert forall k :: 0 <= k < i + 1 ==> convert(entries[k]).Ok? by {
          forall k | 0 <= k < i + 1 ensures convert(entries[k]).Ok? {
            if k > 0 { assert entries[k] == entries[1..][k - 1]; }
          }
        }
        Some(i + 1)
  }

  /**
   * The loop at the start of `send`: every entry converted in order, or the error of the first
   * entry that does not convert (and nothing is posted).
   */
  method ConvertBands(entries: seq<UrlResult>, convert: Converter) returns (r: Result<seq<string>, Error>)
    ensures r.Ok? <==> FirstFailure(entries, convert).None?
    ensures r.Ok? ==> |r.value| == |entries| &&
                      forall k :: 0 <= k < |entries| ==> r.value[k] == convert(entries[k]).value
    ensures r.Err? ==> r.error == convert(entries[FirstFailure(entries, convert).value]).error
  {
    var bands: seq<string> := [];
    var i := 0;
    while i < |entries|
      invariant 0 <= i <= |entries|
      invariant |bands| == i
      invariant forall k :: 0 <= k < i ==> convert(entries[k]).Ok? && bands[k] == convert(entries[k]).value
    {
      var band := convert(entries[i]);
      if band.Err? {
        assert FirstFailure(entries, convert) == Some(i);
        return Err(band.error);
      }
      bands := bands + [band.value];
      i := i + 1;
    }
    return Ok(bands);
  }

  /** `send` up to the POST: the body with the converted bands, or the first conversion error. */
  method Payload(c: SatelliteConfiguration, convert: Converter) returns (r: Result<SatelliteConfigurationInner, Error>)
    ensures r.Ok? <==> FirstFailure(c.bandDetails, convert).None?
    ensures r.Ok? ==> r.value.name == c.name && r.value.doppler == c.doppler && r.value.notes == c.notes
    ensures r.Ok? ==> |r.value.bandDetails| == |c.bandDetails| &&
                      forall k :: 0 <= k < |c.bandDetails| ==> r.value.bandDetails[k] == convert(c.bandDetails[k]).value
    ensures r.Err? ==> r.error == convert(c.bandDetails[FirstFailure(c.bandDetails, convert).value]).error
  {
    var bands := ConvertBands(c.bandDetails, convert);
    match bands {
      case Err(e) => return Err(e);
      case Ok(converted) => return Ok(SatelliteConfigurationInner(c.name, c.doppler, c.notes, converted));
    }
  }
}

=== FILE: post_satellite.dfy ===
/**
 * The satellite builder: name, satellite configuration and NORAD catalogue number in that
 * order, then an optional description.
 */
module PostSatellite {
  import opened Results
  import opened Ints
  import opened Endpoints
  import opened PostPaths

  datatype NoName = NoName
  datatype NoConfig = NoConfig(name: string)
  datatype NoNorad = NoNorad(name: string, configuration: string)

  /** The body that is posted to `satellites`. */
  datatype Satellite = Satellite(
    name: string,
    description: Option<string>,
    noradCatId: u32,
    configuration: string)

  function Name(b: NoName, name: string): (r: NoConfig)
    ensures r.name == name
  {
    NoConfig(name)
  }

  function SatelliteConfigurationUrl(b: NoConfig, url: string): (r: NoNorad)
    ensures r.name == b.name && r.configuration == url
  {
    NoNorad(b.name, url)
  }

  /** `satellite_configuration_id`: the URL the configuration's read call fetches. */
  function SatelliteConfigurationId(b: NoConfig, urlOf: UrlOf, id: i32): (r: NoNorad)
    ensures r == SatelliteConfigurationUrl(b, urlOf(PathOf(SatelliteConfigurationById(id))))
  {
    ReferencesAreReadUrls(urlOf, SatelliteConfigurationById(id));
    SatelliteConfigurationUrl(b, IdUrl(urlOf, SATELLITE_CONFIGURATIONS, id))
  }

  /** `norad_id`: the finished body, with no description yet. */
  function NoradId(b: NoNorad, noradId: u32): (r: Satellite)
    ensures r.name == b.name && r.configuration == b.configuration
    ensures r.noradCatId == noradId && r.description.None?
  {
    Satellite(b.name, None, noradId, b.configuration)
  }

  /** `description`: the description, and nothing else. */
  function Description(s: Satellite, description: string): (r: Satellite)
    ensures r.description == Some(description)
    ensures r.(description := s.description) == s
  {
    s.(description := Some(description))
  }

  /** The last description wins, and every earlier choice reaches the body unchanged. */
  lemma BuildLaws(b: NoName, name: string, url: string, norad: u32, d1: string, d2: string)
    ensures var s := NoradId(SatelliteConfigurationUrl(Name(b, name), url), norad);
            s.name == name && s.configuration == url && s.noradCatId == norad &&
            Description(Description(s, d1), d2) == Description(s, d2)
  {
  }
}

=== FILE: post_user.dfy ===
/**
 * The user builder: account, first name, last name and email in that order, then roles. The
 * account id is not part of the posted body; it is the path the body is posted to.
 */
module PostUser {
  import opened Results
  import opened Ints
  import opened Text
  import opened Endpoints
  import Decimal

  datatype NoAccount = NoAccount
  datatype NoFirstName = NoFirstName(accountId: i32)
  datatype NoLastName = NoLastName(accountId: i32, firstName: string)
  datatype NoEmail = NoEmail(accountId: i32, firstName: string, lastName: string)

  /** The builder's finished state. */
  datatype User = User(
    accountId: i32,
    firstName: string,
    lastName: string,
    email: string,
    machineService: bool,
    roles: seq<string>)

  /** What is serialised: every field but the account id. */
  datatype UserBody = UserBody(
    firstName: string,
    lastName: string,
    email: string,
    machineService: bool,
    roles: seq<string>)

  function AccountId(b: NoAccount, accountId: i32): (r: NoFirstName)
    ensures r.accountId == accountId
  {
    NoFirstName(accountId)
  }

  function FirstName(b: NoFirstName, firstName: string): (r: NoLastName)
    ensures r.accountId == b.accountId && r.firstName == firstName
  {
    NoLastName(b.accountId, firstName)
  }

  function LastName(b: NoLastName, lastName: string): (r: NoEmail)
    ensures r.accountId == b.accountId && r.firstName == b.firstName && r.lastName == lastName
  {
    NoEmail(b.accountId, b.firstName, lastName)
  }

  /** `email`: the finished state, not a machine service, with no roles yet. */
  function Email(b: NoEmail, email: string): (r: User)
    ensures r.accountId == b.accountId && r.firstName == b.firstName && r.lastName == b.lastName
    ensures r.email == email
    ensures !r.machineService && |r.roles| == 0
  {
    User(b.accountId, b.firstName, b.lastName, email, false, [])
  }

  /** `add_role`: one more role at the end; nothing else changes. */
  function AddRole(u: User, role: string): (r: User)
    ensures |r.roles| == |u.roles| + 1 && r.roles[|u.roles|] == role
    ensures r.roles[..|u.roles|] == u.roles
    ensures r.(roles := u.roles) == u
  {
    u.(roles := u.roles + [role])
  }

  /** `add_role` applied to each role in turn, first to last. */
  function AddEach(u: User, roles: seq<string>): User
    decreases |roles|
  {
    if |roles| == 0 then u else AddEach(AddRole(u, roles[0]), roles[1..])
  }

  /** Adding roles one at a time appends them all, in order, and touches nothing else. */
  lemma {:induction false} AddEachAppends(u: User, roles: seq<string>)
    ensures AddEach(u, roles) == u.(roles := u.roles + roles)
    decreases |roles|
  {
    if |roles| > 0 {
      AddEachAppends(AddRole(u, roles[0]), roles[1..]);
      assert (u.roles + [roles[0]]) + roles[1..] == u.roles + roles;
    }
  }

  /** `add_roles`: the loop over the roles, each added with `add_role`. */
  method AddRoles(u: User, roles: seq<string>) returns (r: User)
    ensures r == AddEach(u, roles)
    ensures r.roles == u.roles + roles
    ensures r.(roles := u.roles) == u
  {
    r := u;
    var i := 0;
    while i < |roles|
      invariant 0 <= i <= |roles|
      invariant r == u.(roles := u.roles + roles[..i])
    {
      r := AddRole(r, roles[i]);
      assert roles[..i + 1] == roles[..i] + [roles[i]];
      i := i + 1;
    }
    assert roles[..|roles|] == roles;
    AddEachAppends(u, roles);
  }

  /** The body that is posted. */
  function Body(u: User): (b: UserBody)
    ensures b.firstName == u.firstName && b.lastName == u.lastName && b.email == u.email
    ensures b.machineService == u.machineService && b.roles == u.roles
  {
    UserBody(u.firstName, u.lastName, u.email, u.machineService, u.roles)
  }

  const NEW_USER := "newuser"

  /** `accounts/{account_id}/newuser`: where the body is posted, three segments with the account id in the middle. */
  function NewUserPath(u: User): (p: string)
    ensures Split(p, '/') == [ACCOUNTS, Decimal.IntToText(u.accountId), NEW_USER]
  {
    var id := Decimal.IntToText(u.accountId);
    assert '/' !in ACCOUNTS by {
      forall k | 0 <= k < |ACCOUNTS| ensures ACCOUNTS[k] != '/' { }
    }
    assert '/' !in NEW_USER by {
      forall k | 0 <= k < |NEW_USER| ensures NEW_USER[k] != '/' { }
    }
    var p := ACCOUNTS + "/" + id + "/" + NEW_USER;
    assert p == ACCOUNTS + ['/'] + (id + ['/'] + NEW_USER);
    SplitAtFirstSeparator(ACCOUNTS, id + ['/'] + NEW_USER, '/');
    SplitAtFirstSeparator(id, NEW_USER, '/');
    p
  }

  /** The path has three segments, and the middle one reads back as the account id. */
  lemma NewUserPathNamesAccount(u: User)
    ensures Split(NewUserPath(u), '/') == [ACCOUNTS, Decimal.IntToText(u.accountId), NEW_USER]
    ensures Decimal.ParseI32(Split(NewUserPath(u), '/')[1]) == Some(u.accountId)
  {
    Decimal.ParseI32OfIntToText(u.accountId);
  }

  /**
   * The account id reaches the server only through the path: two users that differ only in
   * their account have the same body and different paths.
   */
  lemma AccountOnlyInPath(u: User, other: i32)
    requires other != u.accountId
    ensures Body(u.(accountId := other)) == Body(u)
    ensures NewUserPath(u.(accountId := other)) != NewUserPath(u)
  {
    var v := u.(accountId := other);
    if NewUserPath(v) == NewUserPath(u) {
      NewUserPathNamesAccount(u);
      NewUserPathNamesAccount(v);
      assert false;
    }
  }
}

=== FILE: text.dfy ===
/**
 * Splitting and joining text on a single separator character, as Rust's `str::split(char)` and
 * `[String]::join` do. Used for query lists (`,`), query strings (`&`) and URL paths (`/`).
 */
module Text {

  /** Index of the first occurrence of `c` in `s`. */
  function IndexOf(s: string, c: char): (i: nat)
    requires c in s
    ensures i < |s| && s[i] == c
    ensures forall j :: 0 <= j < i ==> s[j] != c
  {
    if s[0] == c then 0
    else
      assert s == [s[0]] + s[1..];
      1 + IndexOf(s[1..], c)
  }

  /** `str::split(sep)`: the pieces between separators, in order; there is always at least one. */
  function Split(s: string, sep: char): (r: seq<string>)
    ensures |r| >= 1
    ensures forall k :: 0 <= k < |r| ==> sep !in r[k]
    decreases |s|
  {
    if sep !in s then [s]
    else
      var i := IndexOf(s, sep);
      assert sep !in s[..i] by {
        forall j | 0 <= j < i ensures s[..i][j] != sep { }
      }
      [s[..i]] + Split(s[i + 1..], sep)
  }

  /** `join(sep)`: the parts in order with one separator between neighbours. */
  function Join(parts: seq<string>, sep: char): (r: string)
    ensures |parts| == 0 ==> r == ""
    ensures |parts| >= 1 ==> |r| == TotalLength(parts) + |parts| - 1
    ensures |parts| >= 1 ==> r[..|parts[0]|] == parts[0]
    decreases |parts|
  {
    if |parts| == 0 then ""
    else if |parts| == 1 then parts[0]
    else parts[0] + [sep] + Join(parts[1..], sep)
  }

  function Last<T>(s: seq<T>): T
    requires |s| > 0
  {
    s[|s| - 1]
  }

  function TotalLength(parts: seq<string>): nat
  {
    if |parts| == 0 then 0 else |parts[0]| + TotalLength(parts[1..])
  }

  /** Cutting at the first separator: a separator-free head becomes the first piece. */
  lemma SplitAtFirstSeparator(a: string, b: string, sep: char)
    requires sep !in a
    ensures Split(a + [sep] + b, sep) == [a] + Split(b, sep)
  {
    var s := a + [sep] + b;
    assert s[|a|] == sep;
    assert forall j :: 0 <= j < |a| ==> s[j] == a[j] && s[j] != sep;
    var i := IndexOf(s, sep);
    assert i == |a|;
    assert s[..i] == a;
    assert s[i + 1..] == b;
  }

  /** Whatever precedes the last separator, the last piece is the text after it. */
  lemma {:induction false} LastPieceAfterSeparator(x: string, b: string, sep: char)
    ensures Last(Split(x + [sep] + b, sep)) == Last(Split(b, sep))
    decreases |x|
  {
    if sep !in x {
      SplitAtFirstSeparator(x, b, sep);
    } else {
      var i := IndexOf(x, sep);
      var head, tail := x[..i], x[i + 1..];
      CutAtFirstSeparator(x, sep);
      Regroup(head, tail, b, sep);
      var rest := tail + [sep] + b;
      SplitAtFirstSeparator(head, rest, sep);
      LastPieceAfterSeparator(tail, b, sep);
      LastOfCons(head, Split(rest, sep));
    }
  }

  /** The text before the first separator holds none, and the text is that head, the separator and the rest. */
  lemma CutAtFirstSeparator(x: string, sep: char)
    requires sep in x
    ensures sep !in x[..IndexOf(x, sep)]
    ensures x == x[..IndexOf(x, sep)] + [sep] + x[IndexOf(x, sep) + 1..]
  {
    var i := IndexOf(x, sep);
    forall j | 0 <= j < i ensures x[..i][j] != sep { }
  }

  lemma Regroup(head: string, tail: string, b: string, sep: char)
    ensures head + [sep] + tail + [sep] + b == head + [sep] + (tail + [sep] + b)
  {
  }

  lemma LastOfCons<T>(x: T, s: seq<T>)
    requires |s| > 0
    ensures Last([x] + s) == Last(s)
  {
  }

  /** Splitting the join of separator-free parts gives the parts back. */
  lemma {:induction false} SplitOfJoin(parts: seq<string>, sep: char)
    requires |parts| >= 1
    requires forall k :: 0 <= k < |parts| ==> sep !in parts[k]
    ensures Split(Join(parts, sep), sep) == parts
    decreases |parts|
  {
    if |parts| > 1 {
      SplitAtFirstSeparator(parts[0], Join(parts[1..], sep), sep);
      SplitOfJoin(parts[1..], sep);
      assert parts == [parts[0]] + parts[1..];
    }
  }

  /** Joining the pieces of any text with the same separator restores the text. */
  lemma {:induction false} JoinOfSplit(s: string, sep: char)
    ensures Join(Split(s, sep), sep) == s
    decreases |s|
  {
    if sep in s {
      var i := IndexOf(s, sep);
      var head, tail := s[..i], s[i + 1..];
      JoinOfSplit(tail, sep);
      assert Split(s, sep) == [head] + Split(tail, sep);
      JoinCons(head, Split(tail, sep), sep);
      assert s == head + [sep] + tail;
    }
  }

  lemma JoinCons(head: string, rest: seq<string>, sep: char)
    requires |rest| >= 1
    ensures Join([head] + rest, sep) == head + [sep] + Join(rest, sep)
  {
    assert ([head] + rest)[1..] == rest;
  }
}

=== FILE: utils.dfy ===
/** `list_to_string`: the comma-joined form of a query list (satellite names, task request ids). */
module Utils {
  import opened Text

  /** The elements in input order, with exactly one `,` between neighbours. */
  function ListToString(list: seq<string>): (r: string)
    ensures |list| == 0 ==> r == ""
    ensures |list| == 1 ==> r == list[0]
    ensures |list| >= 1 ==> |r| == TotalLength(list) + |list| - 1
    ensures |list| >= 2 ==> r == list[0] + "," + ListToString(list[1..])
  {
    Join(list, ',')
  }

  /** For a non-empty list of comma-free elements, splitting the output on `,` gives the list back. */
  lemma ListToStringSplits(list: seq<string>)
    requires |list| >= 1
    requires forall k :: 0 <= k < |list| ==> ',' !in list[k]
    ensures Split(ListToString(list), ',') == list
  {
    SplitOfJoin(list, ',');
  }

  /** The empty list and the list holding one empty string render alike: the mapping is not injective. */
  lemma ListToStringNotInjective()
    ensures ListToString([]) == ListToString([""])
    ensures [] != [""]
  {
  }
}
